=== FILE: README.md ===
# Poetry name generator — a Dafny model of its core

The system proposes Chinese given names drawn from classical poetry. The
model covers two independent paths.

- **Local synthesis** (`src/lib/namer.ts`). Poem text is normalised by
  `formatStr`: blanks and `<br>`/`<p>` markup are removed, then parenthesised
  annotations. `splitSentence` cuts the text after every `！。？；`. One
  sentence is picked and cleaned of punctuation (`cleanPunctuation`) and of
  inauspicious characters (`cleanBadChar`). `getTwoChar` takes two of its
  characters, in text order, as the name. `genName` is one such attempt and
  `genNames` repeats it.
- **Model-assisted generation** (`src/lib/ai.ts`). The requested count is
  clamped. The prompt is built from a poetry source. The provider's reply is
  unwrapped from the Anthropic or OpenAI response shape. The JSON array is
  extracted from the reply text, using the first fenced code block if there
  is one. Each element is mapped to a strict `NameCandidate`, and elements
  without a usable name, excerpt and reason are dropped.

Modules, one file each:

| file | module | contents |
|---|---|---|
| `wrappers.dfy` | `Wrappers` | `Option` and `Result` |
| `text.dfy` | `Text` | ECMAScript `\s`, `trim`, character filtering, `split`, `join`, and their laws |
| `rand.dfy` | `Rand` | the random oracle and `choose` |
| `attempts.dfy` | `Attempts` | repeated attempts that consume random draws, kept in attempt order |
| `namer.dfy` | `Namer` | `formatStr` through `genNames` |
| `json.dfy` | `Json` | parsed JSON values and JavaScript property access (`v.k`, `v?.k`, `[0]`) |
| `ai.dfy` | `Ai` | the generation-response pipeline, the prompt, the request URL and the poetry-source conversion |

## Modelling choices

- **Randomness is an oracle.**
  - `draws(k, n)` is the index the `k`-th call `between(0, n)` yields. `Rand.Draws` requires it to be below `n`.
  - Every random operation takes the oracle and a draw position, and returns the position after its draws.
  - Results, ordering and termination are therefore stated for every possible sequence of draws.
- **Outside code becomes a parameter or a small model.**
  - `JSON.parse` is a parameter `parse: string -> Option<Json>`, where `None` means it throws.
  - Property access on parsed data is modelled by `Json.Get` and `Json.OptionalGet`: `v.k` throws exactly on `null` and `undefined`, and `v?.k` yields `undefined` there.
- **Exceptions become values.**
  - A thrown `mapCandidate` is `Ai.Mapped.Throws`.
  - A throwing provider parser returns `Result.Failure` carrying its message.
  - `parseGenerationResponse` turns any throw into `None`, as its `catch` does.
- **Identifiers.** `createId` depends on the clock and `Math.random`. The model replaces it with a running ordinal: the `k`-th candidate kept gets `next + k`. The ordinals are distinct and increasing. The source's identifiers are distinct only with high probability, and they carry no order, since within one millisecond the random suffix decides how they compare.
- **Numbers.**
  - JSON numbers and `requestedCount` are reals.
  - `Math.round` is `Ai.Round`, which rounds halves upwards.
  - `NAME_GENERATION_MIN`, `NAME_GENERATION_MAX` and the two API paths are imported by `ai.ts` from a configuration file that is not part of this model, so they are parameters.
- **The prompt is generic over its fixed texts.**
  - The template is modelled over a `Wording` record holding its fixed texts.
  - `Ai.PromptWording` holds the exact texts of `ai.ts:120-147`.
  - Layout properties (the opening first, the poem after the header, the excluded names, the instructions last, the count readable back) are proved for every wording. They therefore hold for the real one.

### Behaviour worth knowing

- `formatStr` deletes whitespace, the full-width space and the ASCII `"`. The two quote alternatives in `namer.ts:6` are the same straight quote, so curly quotes survive. The `''""` in the punctuation class of `namer.ts:23` are likewise straight quotes only.
- `formatStr`'s annotation pattern `\(.+\)` is greedy: it removes everything from the first `(` to the last `)` of a line.
- The annotation pattern acts on the text left after the first replacement, not on the original line.
- The first replacement of `namer.ts:6` is a single left-to-right pass. Markup that a deletion brings together, as in `<<br>p>`, therefore survives.
- A `null` element in the reply array makes `mapCandidate` throw, since `item.name` throws on `null` (`ai.ts:75`). The `catch` at `ai.ts:160-162` turns that into a `null` result for the whole `parseGenerationResponse`.
- `extractJsonArray` itself throws on malformed JSON, and `parseGenerationResponse` catches it.
- `getTwoChar` redraws the second index at most 101 times, because the counter is checked after it is incremented (`namer.ts:40-45`). After that it accepts a repeated index.

## Model

| member | source | states |
|---|---|---|
| Rand.Choose | src/lib/rand.ts:1-4 | the chosen element is the array element at the drawn index, and exactly one draw is consumed |
| Namer.StripBlanksAndMarkup | src/lib/namer.ts:6 | no whitespace, full-width space or double quote survives the first replacement |
| Namer.StripDeletesMarkup | src/lib/namer.ts:6 | an occurrence of `<br>`, `<p>` or `</p>` is deleted: the text around it is normalised as if it were not there |
| Namer.StripDeletesBlank | src/lib/namer.ts:6 | a single blank is deleted and nothing else changes: the text before it and the text after it are normalised as if they stood side by side |
| Namer.StripKeepsStrayAngle | src/lib/namer.ts:6 | a `<` that does not start `<br>`, `<p>` or `</p>` is kept, and the text on each side of it is normalised as if the `<` were not there |
| Namer.StripBlanksAndMarkupKeepsText | src/lib/namer.ts:6 | every character left by the first replacement occurs in the input |
| Namer.StripBlanksAndMarkupUnchanged | src/lib/namer.ts:6 | text without blanks or `<` comes through the first replacement unchanged |
| Namer.MarkupCanSurvive | src/lib/namer.ts:6 | the replacement is a single left-to-right pass: `<` followed by `<br>` and plain text leaves `<` and the text, so markup formed by a deletion is not removed |
| Namer.DropAnnotationUnmatched | src/lib/namer.ts:7 | with no `(` before a later `)` the annotation replacement changes nothing |
| Namer.DropAnnotationMatched | src/lib/namer.ts:7 | with some `(…)` present, the replacement cuts from the first `(` to the last `)` inclusive and keeps the rest |
| Namer.DropAnnotationIsGreedyReplace | src/lib/namer.ts:7 | on a single line, the annotation replacement is the greedy `\(.+\)`: it either changes nothing (no match) or cuts the outermost span |
| Namer.FormatStr | src/lib/namer.ts:5-9 | the normalised text holds no blank and only characters of the input |
| Namer.KeepSentences | src/lib/namer.ts:19 | the filter keeps only pieces of length at least 2, keeps every occurrence of each such piece exactly as often as it occurs, and keeps their order |
| Namer.SplitSentence | src/lib/namer.ts:11-20 | empty content gives no sentences; every sentence has at least 2 characters, no whitespace and no bar; the sentences are an in-order selection of the pieces holding each piece of length at least 2 exactly as often as the pieces do |
| Namer.PiecesHaveNoBlank | src/lib/namer.ts:15-18 | no piece of the split holds whitespace or the bar |
| Namer.PiecesAreSentences | src/lib/namer.ts:15-18 | the pieces glued together give the normalised text back; every piece but the last ends in a terminal mark, and a terminal mark occurs only at the end of a piece |
| Namer.CleanPunctuation | src/lib/namer.ts:22-25 | no punctuation character survives and the rest keep their order |
| Namer.CleanBadChar | src/lib/namer.ts:27-33 | no bad character survives and the rest keep their order |
| Namer.CleanersKeepExactlyTheRest | src/lib/namer.ts:22-33 | each cleaner keeps every other character as often as it occurred, is idempotent, and leaves clean text unchanged |
| Namer.CleanSentence | src/lib/namer.ts:71 | the cleaned sentence holds neither punctuation nor bad characters |
| Namer.Redraw | src/lib/namer.ts:39-46 | the redraw loop stops at a second index different from the first or after 101 redraws; each redraw consumes one draw, and all but the last equalled the first index |
| Namer.DrawIndices | src/lib/namer.ts:36-46 | the first index is the first draw, the second is the first later draw that differs, unless 101 redraws were used up, and the draws consumed are counted exactly |
| Namer.GetTwoChar | src/lib/namer.ts:35-50 | both indices lie in the array, and the two characters appear in index order |
| Namer.TwoCharInTextOrder | src/lib/namer.ts:47-49 | the name is two characters of the array taken at positions `i <= j` |
| Namer.GenName | src/lib/namer.ts:52-89 | no poems, empty content, no sentence, or a cleaned sentence of at most 2 characters give no name; these failures use 0, 1, 1 and 2 draws, since the poem is drawn before the content test; otherwise the name is derived from the chosen poem and sentence |
| Namer.GenNamePicksTwoChar | src/lib/namer.ts:76-85 | a generated name is exactly what `getTwoChar` picks from the cleaned chosen sentence, drawing after the poem and sentence draws, and generation resumes where `getTwoChar` stopped |
| Namer.GenNameDistinctPositions | src/lib/namer.ts:35-50 | a generated name is two characters of its cleaned sentence at positions `i <= j`, and `i < j` unless all 101 redraws were used up |
| Namer.DerivedNameIsClean | src/lib/namer.ts:69-76 | a derived name has exactly 2 characters, none of them punctuation or a bad character |
| Namer.GenNames | src/lib/namer.ts:91-103 | at most `count` names, none from an empty pool, each derived from one of the poems |
| Namer.GenNamesInAttemptOrder | src/lib/namer.ts:95-102 | `a + b` attempts give the names of the first `a` attempts followed by those of the next `b` |
| Namer.GenNamesOne | src/lib/namer.ts:96-101 | one attempt gives exactly the name `genName` returns, if any, and continues from `genName`'s draw position |
| Namer.GenNamesAllSucceed | src/lib/namer.ts:95-102 | when no attempt can fail, `count` attempts give exactly `count` names |
| Namer.GenNamesDefault | src/lib/namer.ts:91-94 | without a count, at most `NAME_AMOUNT` names, each derived from one of the poems |
| Attempts.RepeatOne | src/lib/namer.ts:96-101 | a single attempt keeps exactly its own result |
| Attempts.RepeatAllKept | src/lib/namer.ts:95-102 | when every attempt yields a result, `count` attempts keep `count` results |
| Attempts.RepeatAppend | src/lib/namer.ts:96-101 | the repetition behind `genNames` keeps results in attempt order and continues the draw position |
| Json.DecimalIsArrayIndex | src/lib/ai.ts:185 | the key `[0]` reads is the canonical array index 0 (for every `n`, the decimal form of `n` names element `n`) |
| Json.OwnProperty | src/lib/ai.ts:185 | an object's property is its member; an array's is the element at a canonical index in range, and a string's the one-character string at such an index; other values have none |
| Json.Get | src/lib/ai.ts:75-77 | `v.k` throws exactly on `null` and `undefined`, and otherwise reads the own property |
| Json.OptionalGet | src/lib/ai.ts:185 | `v?.k` is `undefined` on `null` and `undefined`, and agrees with `v.k` elsewhere |
| Json.AsString | src/lib/ai.ts:75-77 | the `typeof … === "string"` test succeeds exactly on JSON strings and returns their text |
| Ai.Round | src/lib/ai.ts:56 | `Math.round` lands within half a unit of its argument, halves going up |
| Ai.ClampRequestedCount | src/lib/ai.ts:53-58 | the result lies in `[MIN, MAX]`; it is the rounded request when that is in range, `MIN` below, `MAX` above, and `MIN` when `MIN > MAX` |
| Ai.ClampKeepsInRange | src/lib/ai.ts:53-58 | an integer request already in range is returned as is |
| Ai.FirstFenceFrom | src/lib/ai.ts:62 | the first code fence at or after a position, with none before it; none when there is no fence |
| Ai.SkipSpace | src/lib/ai.ts:62 | the `\s*` after the opening fence consumes a maximal run of whitespace |
| Ai.FencedSpanExists | src/lib/ai.ts:62-63 | the fence pattern matches if and only if the text holds two non-overlapping fences |
| Ai.JsonSourceIsFirstBlock | src/lib/ai.ts:60-66 | without a fenced block the JSON source is the trimmed text; with one, it is the trimmed body between the first opening fence (with its optional `json` tag and spaces) and the next fence |
| Ai.FencedBodyHasNoFence | src/lib/ai.ts:62 | the lazy body of the first block contains no fence |
| Ai.ExtractJsonArray | src/lib/ai.ts:60-72 | parse failure, a non-array, and an array are told apart exactly, and an array's items are returned as parsed |
| Ai.TrimmedField | src/lib/ai.ts:75-77 | a field is non-empty after trimming exactly when the item has that string member with non-blank text, and then it is the trimmed member |
| Ai.ReferenceField | src/lib/ai.ts:88-105 | a reference sub-field is kept exactly when `sourceReference` is an object whose member is a string |
| Ai.MapCandidate | src/lib/ai.ts:74-108 | throws exactly on `null`; keeps exactly the items with non-blank name, excerpt and reason; the kept candidate has the trimmed fields, the given identifier, `isValid`, and the string sub-fields of `sourceReference` |
| Ai.ScalarsAreDropped | src/lib/ai.ts:74-108 | a number, boolean, string or array element is dropped without throwing |
| Ai.MapCandidateRoundTrip | src/lib/ai.ts:74-108 | a valid candidate with trimmed, non-empty fields, written out as JSON, maps back to itself |
| Ai.CollectFails | src/lib/ai.ts:157-162 | mapping the array fails exactly when some element makes the mapper throw |
| Ai.CollectNumbers | src/lib/ai.ts:84 | the `k`-th kept candidate was mapped with the `k`-th identifier |
| Ai.CollectMapsSurvivors | src/lib/ai.ts:157-159 | the kept candidates are, one to one and in order, the images of the elements the filter keeps |
| Ai.CollectAppend | src/lib/ai.ts:157-159 | mapping `a + b` gives the candidates of `a` followed by those of `b`, numbered on from where `a` stopped |
| Ai.ParseItems | src/lib/ai.ts:157-162 | `null` results exactly when the array holds `null`; otherwise at most one candidate per element, numbered consecutively |
| Ai.ParseItemsMapsSurvivors | src/lib/ai.ts:157-159 | the candidates are the mapped acceptable elements, in array order |
| Ai.ParseGenerationResponse | src/lib/ai.ts:150-163 | `null` on a parse failure, a non-array, or a `null` element; otherwise the mapped candidates of the extracted array |
| Ai.EmptyArrayResponse | src/lib/ai.ts:150-163 | the reply `[]` gives an empty list, not `null` |
| Ai.ParseAnthropicResponse | src/lib/ai.ts:183-190 | succeeds exactly when `content[0].text` is a string and returns it; otherwise fails with the parse-failure message |
| Ai.ParseOpenAIResponse | src/lib/ai.ts:192-199 | succeeds exactly when `choices[0].message.content` is a string and returns it; otherwise fails with the parse-failure message |
| Ai.StripTrailingSlashes | src/lib/ai.ts:218 | the result is a prefix of the base without a trailing `/`, and only `/` characters were removed |
| Ai.StripTrailingSlashesInverse | src/lib/ai.ts:218 | appending any number of `/` to a base that does not end in one is undone by stripping |
| Ai.StripTrailingSlashesAppended | src/lib/ai.ts:218 | `/` characters appended to any base are stripped along with the base's own |
| Ai.RequestUrl | src/lib/ai.ts:218-220 | the URL is a prefix of the base URL followed by the provider's path; the part of the base left out is all `/`, and the part kept does not end in `/` |
| Ai.RequestUrlIgnoresTrailingSlashes | src/lib/ai.ts:218-220 | adding `/` characters to the end of the base URL does not change the request URL |
| Ai.ToPoetrySource | src/lib/ai.ts:282-292 | a built-in source carrying the poem's text, book, title, author and dynasty, with the id made of the book, `-` and the title |
| Ai.SourceIdIdentifiesPoem | src/lib/ai.ts:285 | when book names hold no `-`, equal source ids mean the same book and title |
| Ai.FillPromptHoldsType | src/lib/ai.ts:120-122 | for every wording, the type label follows the count and is followed by the source type |
| Ai.FillPromptHoldsBook | src/lib/ai.ts:122-123 | for every wording, the book label follows the source type and is followed by the book text |
| Ai.FillPromptHoldsSource | src/lib/ai.ts:120-123 | for every wording, the source type stands after the type label, and after the book label stands the book, or the placeholder when the book is missing or empty |
| Ai.PromptNamesSource | src/lib/ai.ts:120-123 | the prompt shows the source type after `来源类型：`, and the book, or `未指定` for a missing or empty book, after `来源书目：` |
| Ai.ExcludedLine | src/lib/ai.ts:115-118 | no excluded names give an empty line; otherwise the line starts with the avoidance request |
| Ai.BuildGenerationPrompt | src/lib/ai.ts:110-148 | the prompt opens with the expert framing, holds the poem text right after its header lines, and lists the excluded names where the avoidance line begins |
| Ai.FillPromptEndsWithInstructions | src/lib/ai.ts:128-147 | the prompt ends with the requirements and the JSON format instructions |
| Ai.FillPromptListsExcludedNames | src/lib/ai.ts:115-118 | splitting the listed names at the separator gives back the excluded names when none contains the separator |
| Ai.PromptStatesCount | src/lib/ai.ts:120 | the requested count is written in decimal after the opening, and reading those digits back gives the count |

## Left out

- `loadBook` (`namer.ts:105-111`): it fetches a JSON file over the network; poems are a parameter instead.
- `requestAIContent` (`ai.ts:201-236`): the HTTP request, its body and the status check are I/O. Only the URL composition is modelled: `Ai.StripTrailingSlashes` for the base and `Ai.RequestUrl` for base plus path.
- `buildAnthropicHeaders` and `buildOpenAIHeaders` (`ai.ts:165-181`): request metadata built from the configured API key, with `anthropic-version` added only for the `anthropic` provider type; they only feed the HTTP request and are not modelled.
- `generateNameCandidates` (`ai.ts:238-280`): it composes the modelled parts around the network call and stamps the result with `Date`.
- `createId` (`ai.ts:49-51`): it reads the clock and `Math.random`, and is replaced by consecutive ordinals. Nothing the model proves about identifiers carries over to the source, whose identifiers are distinct only with high probability and unordered.
- `rand.ts`'s floating-point `Math.random()` arithmetic is replaced by the `Rand.Draws` oracle, which satisfies its contract that the result lies in `[0, n)`.
- `JSON.parse` is a parameter; JSON text syntax is not modelled.
- Ai.Round: defined on exact reals; `NaN`, infinities and double rounding are not modelled.
- Namer.GenNames: `count` is an integer; a fractional count, for which the loop runs up to the next integer, is not modelled.
- Rand.Choose: requires a non-empty array. `rand.ts` returns `undefined` for an empty one, a case no caller reaches because each guards it first.
- Namer.GetTwoChar: requires a non-empty array. On an empty one the source builds the text `undefinedundefined`, a case `genName` never reaches because it asks for more than 2 characters.
- Namer.GenName: its `catch` is not modelled, because nothing in the modelled path throws once the poem list is a sequence of records.
- Ai.BuildGenerationPrompt: the instructions at the end of the prompt are stated by `Ai.FillPromptEndsWithInstructions` for every wording, not in this function's own contract.
- Ai.BuildGenerationPrompt: `requestedCount` is an integer, as `generateNameCandidates` clamps it before building the prompt; the rendering of other numbers is not modelled.
- Ai.ParseAnthropicResponse: the if-and-only-if is stated for a non-empty `content` array. The model also reads an object `content` with a `"0"` member, as JavaScript does, but the contract only says that success needs a `content` member.
- Ai.ParseOpenAIResponse: likewise, the if-and-only-if is stated for a non-empty `choices` array.
- Characters are UTF-16 code units in the Basic Multilingual Plane; surrogate pairs are not modelled.
- The settings store, UI components and loading feedback lie outside the name pipeline.

=== FILE: ai.dfy ===
/**
 * The pure part of the AI generation path: clamping the requested count,
 * locating the JSON text in a model reply, turning array elements into name
 * candidates, and reading the reply text out of the two provider response
 * shapes.  `JSON.parse` is a parameter; the network call is not modelled.
 */
module Ai {
  import opened Wrappers
  import opened Text
  import opened Json
  import Namer

  // ---------------------------------------------------------------------------
  // clampRequestedCount

  /** `Math.round` on a finite number: the nearest integer, halves rounded up. */
  function Round(x: real): (r: int)
    ensures r as real - 0.5 <= x < r as real + 0.5
  {
    (x + 0.5).Floor
  }

  /** `Math.round` leaves integers alone. */
  lemma RoundInteger(n: int)
    ensures Round(n as real) == n
  {
  }

  /** `clampRequestedCount` with `NAME_GENERATION_MIN = lo` and
      `NAME_GENERATION_MAX = hi`: the rounded count, pulled into [lo, hi]. */
  function ClampRequestedCount(requested: real, lo: int, hi: int): (r: int)
    ensures lo <= hi ==> lo <= r <= hi
    ensures lo <= Round(requested) <= hi ==> r == Round(requested)
    ensures Round(requested) < lo || hi < lo ==> r == lo
    ensures lo <= hi < Round(requested) ==> r == hi
  {
    var rounded := Round(requested);
    var capped := if hi < rounded then hi else rounded;
    if capped < lo then lo else capped
  }

  /** An integer count already in range is kept as it is. */
  lemma ClampKeepsInRange(n: int, lo: int, hi: int)
    requires lo <= n <= hi
    ensures ClampRequestedCount(n as real, lo, hi) == n
  {
    RoundInteger(n);
  }

  // ---------------------------------------------------------------------------
  // extractJsonArray

  const Fence := "```"
  const JsonTag := "json"

  /** A code fence starts at `i`. */
  predicate FenceAt(s: string, i: int) {
    0 <= i && i + 3 <= |s| && s[i..i + 3] == Fence
  }

  /** The first code fence at or after `from`. */
  function FirstFenceFrom(s: string, from: nat): (r: Option<nat>)
    ensures r.Some? ==> from <= r.value && FenceAt(s, r.value)
    ensures r.Some? ==> forall j | from <= j < r.value :: !FenceAt(s, j)
    ensures r.None? ==> forall j | from <= j :: !FenceAt(s, j)
    decreases |s| - from
  {
    if from + 3 > |s| then None
    else if FenceAt(s, from) then Some(from)
    else FirstFenceFrom(s, from + 1)
  }

  /** The optional `json` tag after an opening fence ending at `i`. */
  function SkipTag(s: string, i: nat): (r: nat)
    ensures r == i || (r == i + 4 && r <= |s| && s[i..r] == JsonTag)
  {
    if i + 4 <= |s| && s[i..i + 4] == JsonTag then i + 4 else i
  }

  /** The greedy `\s*`: the first position at or after `i` not holding whitespace. */
  function SkipSpace(s: string, i: nat): (r: nat)
    requires i <= |s|
    ensures i <= r <= |s|
    ensures forall k | i <= k < r :: IsWhitespace(s[k])
    ensures r == |s| || !IsWhitespace(s[r])
    decreases |s| - i
  {
    if i < |s| && IsWhitespace(s[i]) then SkipSpace(s, i + 1) else i
  }

  /** The match of ```` ```(?:json)?\s*([\s\S]*?)``` ````: the bounds of the
      captured body, from the first opening fence to the next fence after the
      tag and the whitespace. */
  function FencedSpan(s: string): (r: Option<(nat, nat)>)
    ensures r.Some? ==> r.value.0 <= r.value.1 <= |s|
  {
    match FirstFenceFrom(s, 0)
    case None => None
    case Some(p) =>
      var b := SkipSpace(s, SkipTag(s, p + 3));
      match FirstFenceFrom(s, b)
      case None => None
      case Some(q) => Some((b, q))
  }

  /** The text `JSON.parse` is given: the trimmed body of the first fenced
      block when there is one, and the whole trimmed reply otherwise. */
  function JsonSource(responseText: string): string
  {
    var t := Trim(responseText);
    match FencedSpan(t)
    case Some((b, q)) => Trim(t[b..q])
    case None => t
  }

  /** The characters between an opening fence and the body it captures are
      the tag and whitespace, never a backtick. */
  lemma OpeningHasNoBacktick(s: string, p: nat)
    requires p + 3 <= |s|
    ensures forall k | p + 3 <= k < SkipSpace(s, SkipTag(s, p + 3)) :: s[k] != '`'
  {
    var a := SkipTag(s, p + 3);
    forall k | p + 3 <= k < a ensures s[k] != '`' {
      assert s[k] == JsonTag[k - (p + 3)];
    }
  }

  /** The regular expression matches exactly when the text holds two code
      fences that do not overlap. */
  lemma {:induction false} FencedSpanExists(s: string)
    ensures FencedSpan(s).Some? <==> exists p, q :: FenceAt(s, p) && FenceAt(s, q) && p + 3 <= q
  {
    if FencedSpan(s).Some? {
      var p := FirstFenceFrom(s, 0).value;
      var q := FencedSpan(s).value.1;
      assert FenceAt(s, p) && FenceAt(s, q) && p + 3 <= q;
    }
    if exists p, q :: FenceAt(s, p) && FenceAt(s, q) && p + 3 <= q {
      var p', q' :| FenceAt(s, p') && FenceAt(s, q') && p' + 3 <= q';
      var p := FirstFenceFrom(s, 0).value;
      var b := SkipSpace(s, SkipTag(s, p + 3));
      OpeningHasNoBacktick(s, p);
      assert s[q'] == '`' by { assert s[q'..q' + 3][0] == s[q']; }
      assert b <= q';
    }
  }

  /** The opening of the first fenced block: `p` is the first fence, and the
      body starts at `b`, after the `json` tag when one follows the fence and
      after all the whitespace behind that. */
  ghost predicate OpensBlock(s: string, p: nat, b: nat) {
    && FenceAt(s, p)
    && (forall j | 0 <= j < p :: !FenceAt(s, j))
    && var a := if p + 7 <= |s| && s[p + 3..p + 7] == JsonTag then p + 7 else p + 3;
       && a <= b <= |s|
       && (forall k | a <= k < b :: IsWhitespace(s[k]))
       && (b == |s| || !IsWhitespace(s[b]))
  }

  /** The body ends at the first fence after its start, so it holds none. */
  ghost predicate ClosesBlock(s: string, b: nat, q: nat) {
    b <= q && FenceAt(s, q) && forall j | b <= j < q :: !FenceAt(s, j)
  }

  /** Only the first fenced block is parsed: with a fenced block, the source
      is the trimmed body between the first opening fence (and its tag and
      whitespace) and the next fence; without one, the whole trimmed reply. */
  lemma JsonSourceIsFirstBlock(responseText: string)
    ensures var t := Trim(responseText);
            && ((forall p, q :: !(FenceAt(t, p) && FenceAt(t, q) && p + 3 <= q)) ==> JsonSource(responseText) == t)
            && ((exists p, q :: FenceAt(t, p) && FenceAt(t, q) && p + 3 <= q) ==>
                  exists p: nat, b: nat, q: nat :: OpensBlock(t, p, b) && ClosesBlock(t, b, q)
                                                 && JsonSource(responseText) == Trim(t[b..q]))
  {
    var t := Trim(responseText);
    FencedSpanExists(t);
    if FencedSpan(t).Some? {
      var p := FirstFenceFrom(t, 0).value;
      var (b, q) := FencedSpan(t).value;
      assert OpensBlock(t, p, b);
      assert ClosesBlock(t, b, q);
    }
  }

  /** The captured body of the first fenced block, if the reply has one. */
  function FencedBody(s: string): (r: Option<string>)
    ensures r.Some? <==> FencedSpan(s).Some?
  {
    match FencedSpan(s)
    case Some((b, q)) => Some(s[b..q])
    case None => None
  }

  /** The captured body holds no code fence: the capture is lazy. */
  lemma FencedBodyHasNoFence(s: string)
    requires FencedBody(s).Some?
    ensures forall j :: !FenceAt(FencedBody(s).value, j)
  {
    var (b, q) := FencedSpan(s).value;
    var body := FencedBody(s).value;
    assert body == s[b..q];
    forall j
      ensures !FenceAt(body, j)
    {
      if 0 <= j && j + 3 <= |body| {
        assert body[j..j + 3] == s[b + j..b + j + 3];
        assert !FenceAt(s, b + j);
      }
    }
  }

  /** What `extractJsonArray` ends in: `JSON.parse` threw, the value is not an
      array (`null`), or the array's elements. */
  datatype Extracted = ParseError | NotAnArray | Items(items: seq<Json>)

  /** `extractJsonArray`, with `JSON.parse` as `parse` (None when it throws). */
  function ExtractJsonArray(responseText: string, parse: string -> Option<Json>): (r: Extracted)
    ensures r.ParseError? <==> parse(JsonSource(responseText)).None?
    ensures r.NotAnArray? <==> parse(JsonSource(responseText)).Some? && !parse(JsonSource(responseText)).value.JArray?
    ensures r.Items? ==> parse(JsonSource(responseText)) == Some(JArray(r.items))
  {
    match parse(JsonSource(responseText))
    case None => ParseError
    case Some(JArray(items)) => Items(items)
    case Some(_) => NotAnArray
  }

  // ---------------------------------------------------------------------------
  // mapCandidate

  /** `sourceReference` of a candidate: each field present only when the reply
      held a string there. */
  datatype SourceReference = SourceReference(
    book: Option<string>, title: Option<string>, author: Option<string>, dynasty: Option<string>)

  /** A candidate the parser produces.  `candidateId` stands for the fresh
      identifier `createId` makes: the ordinal of the candidate in its parse. */
  datatype NameCandidate = NameCandidate(
    candidateId: nat,
    name: string,
    excerpt: string,
    reason: string,
    sourceReference: SourceReference,
    isValid: bool)

  /** What `mapCandidate` does with one element: throws, returns `null`, or
      returns a candidate. */
  datatype Mapped = Throws | Dropped | Kept(candidate: NameCandidate)

  /** `item.key` is a string that is not blank: the three required fields. */
  predicate HasText(item: Json, key: string) {
    item.JObject? && key in item.fields && item.fields[key].JString? && Trim(item.fields[key].str) != []
  }

  /** An element `mapCandidate` turns into a candidate. */
  predicate Acceptable(item: Json) {
    HasText(item, "name") && HasText(item, "excerpt") && HasText(item, "reason")
  }

  /** The string at `item.sourceReference.key`, if there is one there. */
  ghost function ReferenceIn(item: Json, key: string): Option<string> {
    if && item.JObject? && "sourceReference" in item.fields
       && item.fields["sourceReference"].JObject?
       && key in item.fields["sourceReference"].fields
       && item.fields["sourceReference"].fields[key].JString?
    then Some(item.fields["sourceReference"].fields[key].str)
    else None
  }

  /** `typeof item.key === "string" ? item.key.trim() : ""` for an item that
      is not nullish and a key that is not an array index. */
  function TrimmedField(item: Json, key: string): (r: string)
    requires key != [] && !IsDigit(key[0])
    ensures r != [] <==> HasText(item, key)
    ensures r != [] ==> r == Trim(item.fields[key].str)
  {
    match AsString(OwnProperty(item, key))
    case Some(s) => Trim(s)
    case None => ""
  }

  /** `typeof item.sourceReference?.key === "string" ? item.sourceReference.key : undefined`. */
  function ReferenceField(item: Json, key: string): (r: Option<string>)
    requires key != [] && !IsDigit(key[0])
    ensures r == ReferenceIn(item, key)
  {
    assert !IsDigit("sourceReference"[0]);
    AsString(OptionalGet(OwnProperty(item, "sourceReference"), key))
  }

  /** `mapCandidate(item)`, the new candidate numbered `id`. */
  function MapCandidate(item: Json, id: nat): (r: Mapped)
    ensures r.Throws? <==> item.JNull?
    ensures r.Kept? <==> Acceptable(item)
    ensures r.Kept? ==> var c := r.candidate;
      && c.candidateId == id && c.isValid
      && c.name == Trim(item.fields["name"].str)
      && c.excerpt == Trim(item.fields["excerpt"].str)
      && c.reason == Trim(item.fields["reason"].str)
      && c.sourceReference == SourceReference(
           ReferenceIn(item, "book"), ReferenceIn(item, "title"),
           ReferenceIn(item, "author"), ReferenceIn(item, "dynasty"))
  {
    if Get(Defined(item), "name").None? then Throws
    else
      var name := TrimmedField(item, "name");
      var excerpt := TrimmedField(item, "excerpt");
      var reason := TrimmedField(item, "reason");
      if name == [] || excerpt == [] || reason == [] then Dropped
      else
        var sr := SourceReference(
          ReferenceField(item, "book"), ReferenceField(item, "title"),
          ReferenceField(item, "author"), ReferenceField(item, "dynasty"));
        Kept(NameCandidate(id, name, excerpt, reason, sr, true))
  }

  /** Elements that are neither objects nor `null` are skipped without error. */
  lemma ScalarsAreDropped(item: Json, id: nat)
    requires !item.JObject? && !item.JNull?
    ensures MapCandidate(item, id) == Dropped
  {
  }

  /** The members `sourceReference` holds for a candidate's reference. */
  function ReferenceMembers(sr: SourceReference): map<string, Json>
  {
    var m0: map<string, Json> := map[];
    var m1 := if sr.book.Some? then m0["book" := JString(sr.book.value)] else m0;
    var m2 := if sr.title.Some? then m1["title" := JString(sr.title.value)] else m1;
    var m3 := if sr.author.Some? then m2["author" := JString(sr.author.value)] else m2;
    if sr.dynasty.Some? then m3["dynasty" := JString(sr.dynasty.value)] else m3
  }

  /** The JSON element a model would write for a candidate, in the format the
      prompt asks for. */
  function CandidateToJson(c: NameCandidate): Json
  {
    JObject(map[
      "name" := JString(c.name),
      "excerpt" := JString(c.excerpt),
      "reason" := JString(c.reason),
      "sourceReference" := JObject(ReferenceMembers(c.sourceReference))])
  }

  /** The string a map of members holds under `key`, if it holds one. */
  function StringMember(m: map<string, Json>, key: string): Option<string> {
    if key in m && m[key].JString? then Some(m[key].str) else None
  }

  /** Each field of a reference is read back from its members. */
  lemma ReferenceMembersRead(sr: SourceReference)
    ensures var m := ReferenceMembers(sr);
            && StringMember(m, "book") == sr.book && StringMember(m, "title") == sr.title
            && StringMember(m, "author") == sr.author && StringMember(m, "dynasty") == sr.dynasty
  {
    assert "book"[0] == 'b' && "title"[0] == 't' && "author"[0] == 'a' && "dynasty"[0] == 'd';
  }

  /** A candidate written out as JSON is read back as itself, provided its
      text fields are trimmed and not empty. */
  lemma MapCandidateRoundTrip(c: NameCandidate)
    requires c.isValid
    requires c.name != [] && Trim(c.name) == c.name
    requires c.excerpt != [] && Trim(c.excerpt) == c.excerpt
    requires c.reason != [] && Trim(c.reason) == c.reason
    ensures MapCandidate(CandidateToJson(c), c.candidateId) == Kept(c)
  {
    var j := CandidateToJson(c);
    var sr := c.sourceReference;
    var refs := ReferenceMembers(sr);
    assert "name"[0] == 'n' && "excerpt"[0] == 'e' && "reason"[0] == 'r' && "sourceReference"[0] == 's';
    assert j.fields["name"] == JString(c.name);
    assert j.fields["excerpt"] == JString(c.excerpt);
    assert j.fields["reason"] == JString(c.reason);
    assert j.fields["sourceReference"] == JObject(refs);
    assert Acceptable(j);
    ReferenceMembersRead(sr);
    assert ReferenceIn(j, "book") == StringMember(refs, "book");
    assert ReferenceIn(j, "title") == StringMember(refs, "title");
    assert ReferenceIn(j, "author") == StringMember(refs, "author");
    assert ReferenceIn(j, "dynasty") == StringMember(refs, "dynasty");
  }

  // ---------------------------------------------------------------------------
  // parseGenerationResponse

  /** `parsed.map(f).filter(c => c !== null)` for a mapper `f` that is given
      each element and the number its candidate gets, numbers counting up from
      `next` over the kept candidates: None when `f` throws on an element. */
  function Collect(items: seq<Json>, next: nat, f: (Json, nat) -> Mapped): (r: Option<seq<NameCandidate>>)
    ensures r.Some? ==> |r.value| <= |items|
  {
    if items == [] then Some([])
    else
      match f(items[0], next)
      case Throws => None
      case Dropped => Collect(items[1..], next, f)
      case Kept(c) =>
        match Collect(items[1..], next + 1, f)
        case None => None
        case Some(rest) => Some([c] + rest)
  }

  /** With a mapper that throws on `null` and on nothing else, collecting
      fails exactly when the array holds a `null`. */
  lemma {:induction false} CollectFails(items: seq<Json>, next: nat, f: (Json, nat) -> Mapped)
    requires forall x, i :: f(x, i).Throws? <==> x.JNull?
    ensures Collect(items, next, f).None? <==> JNull in items
  {
    if items != [] {
      assert items == [items[0]] + items[1..];
      assert f(items[0], next).Throws? <==> items[0].JNull?;
      match f(items[0], next)
      case Throws =>
      case Dropped => CollectFails(items[1..], next, f);
      case Kept(_) => CollectFails(items[1..], next + 1, f);
    }
  }

  /** A property every kept candidate has with its own number holds of every
      collected candidate with its position counted from `next`. */
  lemma {:induction false} CollectNumbers(items: seq<Json>, next: nat, f: (Json, nat) -> Mapped,
                                          P: (NameCandidate, nat) -> bool)
    requires forall x, i :: f(x, i).Kept? ==> P(f(x, i).candidate, i)
    ensures Collect(items, next, f).Some? ==>
      var r := Collect(items, next, f).value;
      forall k | 0 <= k < |r| :: P(r[k], next + k)
  {
    if items != [] {
      match f(items[0], next)
      case Throws =>
      case Dropped =>
        CollectNumbers(items[1..], next, f, P);
        assert Collect(items, next, f) == Collect(items[1..], next, f);
        if Collect(items, next, f).Some? {
          var r := Collect(items[1..], next, f).value;
          forall k | 0 <= k < |r|
            ensures P(r[k], next + k)
          {
            var rk := r[k];
            assert P(rk, next + k);
          }
        }
      case Kept(c) =>
        CollectNumbers(items[1..], next + 1, f, P);
        assert P(c, next);
        if Collect(items, next, f).Some? {
          assert Collect(items[1..], next + 1, f).Some?;
          var rest := Collect(items[1..], next + 1, f).value;
          var r := Collect(items, next, f).value;
          assert r == [c] + rest;
          forall k | 0 <= k < |r|
            ensures P(r[k], next + k)
          {
            if k > 0 {
              var j := k - 1;
              assert r[k] == rest[j];
              assert P(rest[j], (next + 1) + j);
            } else {
              assert r[0] == c;
            }
          }
        }
    }
  }

  /** The elements `keep` accepts, in array order. */
  ghost function Survivors(items: seq<Json>, keep: Json -> bool): (r: seq<Json>)
    ensures forall k | 0 <= k < |r| :: keep(r[k])
  {
    if items == [] then []
    else if keep(items[0]) then [items[0]] + Survivors(items[1..], keep)
    else Survivors(items[1..], keep)
  }

  lemma {:induction false} SurvivorsAreSubsequence(items: seq<Json>, keep: Json -> bool)
    ensures IsSubsequence(Survivors(items, keep), items)
  {
    if items != [] {
      SurvivorsAreSubsequence(items[1..], keep);
    }
  }

  /** With a mapper that keeps exactly the elements `keep` accepts, the `k`-th
      candidate is the mapping of the `k`-th accepted element. */
  lemma {:induction false} CollectMapsSurvivors(items: seq<Json>, next: nat, f: (Json, nat) -> Mapped,
                                                keep: Json -> bool)
    requires forall x, i :: f(x, i).Kept? <==> keep(x)
    requires Collect(items, next, f).Some?
    ensures var r := Collect(items, next, f).value;
            && |r| == |Survivors(items, keep)|
            && forall k | 0 <= k < |r| :: Kept(r[k]) == f(Survivors(items, keep)[k], next + k)
  {
    if items != [] {
      var tail := items[1..];
      var r := Collect(items, next, f).value;
      if keep(items[0]) {
        CollectMapsSurvivors(tail, next + 1, f, keep);
        var c := f(items[0], next).candidate;
        var rest := Collect(tail, next + 1, f).value;
        assert r == [c] + rest;
        assert Survivors(items, keep) == [items[0]] + Survivors(tail, keep);
        forall k | 0 <= k < |r|
          ensures Kept(r[k]) == f(Survivors(items, keep)[k], next + k)
        {
          if k > 0 {
            assert r[k] == rest[k - 1];
            assert Survivors(items, keep)[k] == Survivors(tail, keep)[k - 1];
          }
        }
      } else {
        assert f(items[0], next).Dropped?;
        CollectMapsSurvivors(tail, next, f, keep);
      }
    }
  }

  /** Collecting `a + b` collects `a`, then `b` numbered on from where `a` stopped. */
  lemma {:induction false} CollectAppend(a: seq<Json>, b: seq<Json>, next: nat, f: (Json, nat) -> Mapped)
    ensures Collect(a, next, f).None? ==> Collect(a + b, next, f).None?
    ensures Collect(a, next, f).Some? ==>
      var ra := Collect(a, next, f).value;
      Collect(a + b, next, f) ==
        (match Collect(b, next + |ra|, f)
         case None => None
         case Some(rb) => Some(ra + rb))
  {
    if a != [] {
      assert (a + b)[1..] == a[1..] + b;
      assert (a + b)[0] == a[0];
      match f(a[0], next)
      case Throws =>
      case Dropped =>
        CollectAppend(a[1..], b, next, f);
      case Kept(c) =>
        CollectAppend(a[1..], b, next + 1, f);
        if Collect(a[1..], next + 1, f).Some? && Collect(b, next + |Collect(a, next, f).value|, f).Some? {
          var ra' := Collect(a[1..], next + 1, f).value;
          var rb := Collect(b, next + |Collect(a, next, f).value|, f).value;
          assert [c] + (ra' + rb) == ([c] + ra') + rb;
        }
    } else {
      assert a + b == b;
      if Collect(b, next, f).Some? {
        assert [] + Collect(b, next, f).value == Collect(b, next, f).value;
      }
    }
  }

  /** A candidate as `mapCandidate` makes it: numbered `id`, marked valid,
      with its three text fields filled in. */
  predicate Numbered(c: NameCandidate, id: nat) {
    c.candidateId == id && c.isValid && c.name != [] && c.excerpt != [] && c.reason != []
  }

  /** `parsed.map(mapCandidate).filter(c => c !== null)`, numbering the
      candidates from `next`: None when an element is `null`, which makes
      `mapCandidate` throw. */
  function ParseItems(items: seq<Json>, next: nat): (r: Option<seq<NameCandidate>>)
    ensures r.None? <==> JNull in items
    ensures r.Some? ==> |r.value| <= |items|
    ensures r.Some? ==> forall k | 0 <= k < |r.value| :: Numbered(r.value[k], next + k)
  {
    CollectFails(items, next, MapCandidate);
    CollectNumbers(items, next, MapCandidate, Numbered);
    Collect(items, next, MapCandidate)
  }

  /** The candidates are the acceptable elements mapped one by one, in the
      order of the array: the `k`-th candidate comes from the `k`-th element
      that `mapCandidate` keeps. */
  lemma ParseItemsMapsSurvivors(items: seq<Json>, next: nat)
    requires JNull !in items
    ensures var r := ParseItems(items, next).value;
            && IsSubsequence(Survivors(items, Acceptable), items)
            && |r| == |Survivors(items, Acceptable)|
            && forall k | 0 <= k < |r| :: Kept(r[k]) == MapCandidate(Survivors(items, Acceptable)[k], next + k)
  {
    SurvivorsAreSubsequence(items, Acceptable);
    assert ParseItems(items, next).Some?;
    CollectMapsSurvivors(items, next, MapCandidate, Acceptable);
  }

  /** `parseGenerationResponse`: None (`null`) when `JSON.parse` throws, when
      the value is not an array, or when an element is `null`; otherwise the
      candidates of the elements. */
  function ParseGenerationResponse(responseText: string, parse: string -> Option<Json>): (r: Option<seq<NameCandidate>>)
    ensures var e := ExtractJsonArray(responseText, parse);
            r.None? <==> !e.Items? || JNull in e.items
    ensures var e := ExtractJsonArray(responseText, parse);
            r.Some? ==> e.Items? && |r.value| <= |e.items| && r == ParseItems(e.items, 0)
  {
    match ExtractJsonArray(responseText, parse)
    case Items(items) => ParseItems(items, 0)
    case _ => None
  }

  /** An empty array is an empty list of candidates, not a failure. */
  lemma EmptyArrayResponse(parse: string -> Option<Json>)
    requires parse("[]") == Some(JArray([]))
    ensures ParseGenerationResponse("[]", parse) == Some([])
  {
    var t := "[]";
    TrimUnchanged(t);
    assert FirstFenceFrom(t, 0).None?;
    assert JsonSource(t) == t;
    assert ExtractJsonArray(t, parse) == Items([]);
    assert ParseItems([], 0).Some? && |ParseItems([], 0).value| == 0;
  }

  // ---------------------------------------------------------------------------
  // parseAnthropicResponse, parseOpenAIResponse

  const ParseFailure := "Failed to parse AI generation response"

  /** `resp?.content?.[0]?.text`, or the error when it is not a string. */
  function ParseAnthropicResponse(data: Json): (r: Result<string, string>)
    ensures r.Failure? ==> r.error == ParseFailure
    ensures r.Success? ==> data.JObject? && "content" in data.fields
    ensures data.JObject? && "content" in data.fields && data.fields["content"].JArray?
            && |data.fields["content"].items| > 0 ==>
              var first := data.fields["content"].items[0];
              && (r.Success? <==> first.JObject? && "text" in first.fields && first.fields["text"].JString?)
              && (r.Success? ==> r.value == first.fields["text"].str)
  {
    var first := OptionalGet(OptionalGet(Defined(data), "content"), "0");
    DecimalIsArrayIndex(0);
    match AsString(OptionalGet(first, "text"))
    case Some(text) => Success(text)
    case None => Failure(ParseFailure)
  }

  /** `resp?.choices?.[0]?.message?.content`, or the error when it is not a string. */
  function ParseOpenAIResponse(data: Json): (r: Result<string, string>)
    ensures r.Failure? ==> r.error == ParseFailure
    ensures r.Success? ==> data.JObject? && "choices" in data.fields
    ensures data.JObject? && "choices" in data.fields && data.fields["choices"].JArray?
            && |data.fields["choices"].items| > 0 ==>
              var first := data.fields["choices"].items[0];
              && (r.Success? <==> && first.JObject? && "message" in first.fields
                                  && first.fields["message"].JObject?
                                  && "content" in first.fields["message"].fields
                                  && first.fields["message"].fields["content"].JString?)
              && (r.Success? ==> r.value == first.fields["message"].fields["content"].str)
  {
    var first := OptionalGet(OptionalGet(Defined(data), "choices"), "0");
    DecimalIsArrayIndex(0);
    match AsString(OptionalGet(OptionalGet(first, "message"), "content"))
    case Some(text) => Success(text)
    case None => Failure(ParseFailure)
  }

  // ---------------------------------------------------------------------------
  // request URL

  /** `baseUrl.replace(/\/+$/, "")`: every `/` at the end is removed. */
  function StripTrailingSlashes(base: string): (r: string)
    ensures |r| <= |base| && r == base[..|r|]
    ensures forall i | |r| <= i < |base| :: base[i] == '/'
    ensures r == [] || r[|r| - 1] != '/'
  {
    if base != [] && base[|base| - 1] == '/' then StripTrailingSlashes(base[..|base| - 1]) else base
  }

  /** Stripping twice strips nothing more. */
  lemma StripTrailingSlashesIdempotent(base: string)
    ensures StripTrailingSlashes(StripTrailingSlashes(base)) == StripTrailingSlashes(base)
  {
  }

  /** Appending slashes to a base that ends without one is undone by stripping. */
  lemma {:induction false} StripTrailingSlashesInverse(base: string, n: nat)
    requires base == [] || base[|base| - 1] != '/'
    ensures StripTrailingSlashes(base + Slashes(n)) == base
  {
    if n > 0 {
      assert base + Slashes(n) == (base + Slashes(n - 1)) + ['/'];
      assert (base + Slashes(n))[..|base + Slashes(n)| - 1] == base + Slashes(n - 1);
      StripTrailingSlashesInverse(base, n - 1);
    } else {
      assert base + Slashes(0) == base;
    }
  }

  /** Slashes appended to any base are stripped together with the base's own. */
  lemma {:induction false} StripTrailingSlashesAppended(base: string, n: nat)
    ensures StripTrailingSlashes(base + Slashes(n)) == StripTrailingSlashes(base)
  {
    if n > 0 {
      var s := base + Slashes(n);
      assert s[|s| - 1] == '/';
      assert s[..|s| - 1] == base + Slashes(n - 1);
      StripTrailingSlashesAppended(base, n - 1);
    } else {
      assert base + Slashes(0) == base;
    }
  }

  /** The request URL does not depend on how many `/` end the base URL. */
  lemma RequestUrlIgnoresTrailingSlashes(baseUrl: string, n: nat, isOpenAI: bool, openAIPath: string, anthropicPath: string)
    ensures RequestUrl(baseUrl + Slashes(n), isOpenAI, openAIPath, anthropicPath)
         == RequestUrl(baseUrl, isOpenAI, openAIPath, anthropicPath)
  {
    StripTrailingSlashesAppended(baseUrl, n);
  }

  function Slashes(n: nat): (r: string)
    ensures |r| == n && forall i | 0 <= i < n :: r[i] == '/'
  {
    if n == 0 then [] else Slashes(n - 1) + ['/']
  }

  /** The request URL: the stripped base followed by the provider's API path. */
  function RequestUrl(baseUrl: string, isOpenAI: bool, openAIPath: string, anthropicPath: string): (r: string)
    ensures var path := if isOpenAI then openAIPath else anthropicPath;
            var k := |r| - |path|;
            && 0 <= k <= |baseUrl| && r[..k] == baseUrl[..k] && r[k..] == path
            && (forall i | k <= i < |baseUrl| :: baseUrl[i] == '/')
            && (k == 0 || baseUrl[k - 1] != '/')
  {
    StripTrailingSlashes(baseUrl) + (if isOpenAI then openAIPath else anthropicPath)
  }

  // ---------------------------------------------------------------------------
  // toPoetrySourceFromGeneratedName

  datatype SourceType = Builtin | CustomText

  /** The text the prompt shows for a source type. */
  function SourceTypeName(t: SourceType): string {
    match t
    case Builtin => "builtin"
    case CustomText => "custom_text"
  }

  /** The material a generation request is based on. */
  datatype PoetrySource = PoetrySource(
    sourceType: SourceType,
    sourceId: Option<string>,
    book: Option<string>,
    poetryText: string,
    title: Option<string>,
    author: Option<string>,
    dynasty: Option<string>)

  /** `toPoetrySourceFromGeneratedName`: a built-in source carrying the
      poem's text and attribution, identified by `book-title`. */
  function ToPoetrySource(g: Namer.GeneratedName): (r: PoetrySource)
    ensures r.sourceType == Builtin && r.poetryText == g.content
    ensures r.book == Some(g.book) && r.title == Some(g.title)
    ensures r.author == Some(g.author) && r.dynasty == Some(g.dynasty)
    ensures r.sourceId.Some? && HasPrefix(r.sourceId.value, g.book)
    ensures r.sourceId.Some? && r.sourceId.value[|g.book|..] == "-" + g.title
  {
    PoetrySource(Builtin, Some(g.book + "-" + g.title), Some(g.book),
                 g.content, Some(g.title), Some(g.author), Some(g.dynasty))
  }

  /** For books whose names hold no `-`, the source id tells the book and the
      title apart again: two names with the same id come from the same book
      and title. */
  lemma SourceIdIdentifiesPoem(g1: Namer.GeneratedName, g2: Namer.GeneratedName)
    requires '-' !in g1.book && '-' !in g2.book
    requires ToPoetrySource(g1).sourceId == ToPoetrySource(g2).sourceId
    ensures g1.book == g2.book && g1.title == g2.title
  {
    SplitAtSep(g1.book, g1.title, '-');
    SplitAtSep(g2.book, g2.title, '-');
    var id := g1.book + "-" + g1.title;
    assert g1.book == Split(id, '-')[0] == g2.book;
    assert g1.title == id[|g1.book| + 1..] == g2.title;
  }

  // ---------------------------------------------------------------------------
  // buildGenerationPrompt

  /** The fixed texts of the prompt template, in the order they appear. */
  datatype Wording = Wording(
    opening: string, countClosing: string, bookLabel: string, unspecified: string,
    poemLabel: string, excludedIntro: string, separator: char, instructions: string)

  /** The wording `buildGenerationPrompt` uses. */
  const PromptWording := Wording(
    "你是一位精通中国古典文学与姓名美学的专家。请基于下面提供的诗文内容，生成 ",
    " 个中文名字候选。\n\n来源类型：",
    "\n来源书目：",
    "未指定",
    "\n诗文内容：\n",
    "\n请尽量避免重复以下名字：",
    '、',
    "\n\n要求：\n1. 每个候选名字应简洁、适合起名。\n2. 每个候选都必须提供对应诗句摘录（excerpt）。\n3. 每个候选都必须提供简要理由（reason），说明名字与诗文关系。\n4. 候选之间尽量避免重复。\n\n请严格返回 JSON 数组，不要输出任何额外文本，格式如下：\n[\n  {\n    \"name\": \"清和\",\n    \"excerpt\": \"诗句摘录\",\n    \"reason\": \"简要解释\",\n    \"sourceReference\": {\n      \"book\": \"诗经\",\n      \"title\": \"关雎\",\n      \"author\": \"佚名\",\n      \"dynasty\": \"先秦\"\n    }\n  }\n]")

  /** `String(n)` for an integer. */
  function IntText(n: int): (r: string)
    ensures n >= 0 ==> r == Decimal(n)
  {
    if n < 0 then "-" + Decimal(-n) else Decimal(n)
  }

  /** `poetrySource.book || unspecified`: an absent or empty book is unspecified. */
  function BookText(book: Option<string>, unspecified: string): (r: string)
    ensures book.Some? && book.value != [] ==> r == book.value
    ensures book.None? || book.value == [] ==> r == unspecified
  {
    if book.Some? && book.value != [] then book.value else unspecified
  }

  /** The line asking the model to avoid names it already gave, empty when there are none. */
  function ExcludedLine(w: Wording, excludedNames: seq<string>): (r: string)
    ensures excludedNames == [] ==> r == []
    ensures excludedNames != [] ==> HasPrefix(r, w.excludedIntro)
  {
    if |excludedNames| > 0 then w.excludedIntro + JoinWith(excludedNames, w.separator) else ""
  }

  /** The text in front of the poem: the task, the count, the source type and the book. */
  function PromptHead(w: Wording, source: PoetrySource, requestedCount: int): string {
    w.opening + (IntText(requestedCount) + SourceLines(w, source))
  }

  /** The rest of the head after the count: the source type and the book. */
  function SourceLines(w: Wording, source: PoetrySource): string {
    w.countClosing + (SourceTypeName(source.sourceType)
      + (w.bookLabel + (BookText(source.book, w.unspecified) + w.poemLabel)))
  }

  /** The poem text and what follows it: the names to avoid and the instructions. */
  function PoemAndAfter(w: Wording, source: PoetrySource, excludedNames: seq<string>): string {
    source.poetryText + ("\n" + (ExcludedLine(w, excludedNames) + w.instructions))
  }

  /** The template filled in with a source, a count and the names to avoid. */
  function FillPrompt(w: Wording, source: PoetrySource, requestedCount: int, excludedNames: seq<string>): string {
    PromptHead(w, source, requestedCount) + PoemAndAfter(w, source, excludedNames)
  }

  /** Where the list of names to avoid starts in a filled prompt. */
  function ExcludedStart(w: Wording, source: PoetrySource, requestedCount: int): nat {
    |PromptHead(w, source, requestedCount)| + |source.poetryText| + 1 + |w.excludedIntro|
  }

  /** A filled prompt opens with the opening and holds the poem text in full
      right after the head. */
  lemma {:induction false} FillPromptHoldsPoem(w: Wording, source: PoetrySource, requestedCount: int, excludedNames: seq<string>)
    ensures var r := FillPrompt(w, source, requestedCount, excludedNames);
            && OccursAt(r, w.opening, 0)
            && OccursAt(r, source.poetryText, |PromptHead(w, source, requestedCount)|)
  {
    var head := PromptHead(w, source, requestedCount);
    var t1 := PoemAndAfter(w, source, excludedNames);
    OccursAtStart(w.opening, IntText(requestedCount) + SourceLines(w, source));
    OccursInLeft(head, t1, w.opening, 0);
    OccursAtStart(source.poetryText, "\n" + (ExcludedLine(w, excludedNames) + w.instructions));
    OccursInRight(head, t1, source.poetryText, 0);
  }

  /** A filled prompt ends with the instructions. */
  lemma {:induction false} FillPromptEndsWithInstructions(w: Wording, source: PoetrySource, requestedCount: int, excludedNames: seq<string>)
    ensures var r := FillPrompt(w, source, requestedCount, excludedNames);
            OccursAt(r, w.instructions, |r| - |w.instructions|)
  {
    var head := PromptHead(w, source, requestedCount);
    var line := ExcludedLine(w, excludedNames);
    var t3 := line + w.instructions;
    var t2 := "\n" + t3;
    var t1 := PoemAndAfter(w, source, excludedNames);
    assert t1 == source.poetryText + t2;
    OccursAtStart(w.instructions, []);
    assert w.instructions + [] == w.instructions;
    OccursInRight(line, w.instructions, w.instructions, 0);
    OccursInRight("\n", t3, w.instructions, |line|);
    OccursInRight(source.poetryText, t2, w.instructions, 1 + |line|);
    OccursInRight(head, t1, w.instructions, |source.poetryText| + (1 + |line|));
  }

  /** A filled prompt holds the names to avoid, joined, right after their
      introduction behind the poem. */
  lemma {:induction false} FillPromptHoldsExcludedNames(w: Wording, source: PoetrySource, requestedCount: int, excludedNames: seq<string>)
    ensures excludedNames != [] ==>
      OccursAt(FillPrompt(w, source, requestedCount, excludedNames),
               JoinWith(excludedNames, w.separator), ExcludedStart(w, source, requestedCount))
  {
    if excludedNames == [] { return; }
    var head := PromptHead(w, source, requestedCount);
    var line := ExcludedLine(w, excludedNames);
    var t3 := line + w.instructions;
    var t2 := "\n" + t3;
    var t1 := PoemAndAfter(w, source, excludedNames);
    assert t1 == source.poetryText + t2;
    var names := JoinWith(excludedNames, w.separator);
    assert line == w.excludedIntro + names;
    OccursAtStart(names, []);
    assert names + [] == names;
    OccursInRight(w.excludedIntro, names, names, 0);
    OccursInLeft(line, w.instructions, names, |w.excludedIntro|);
    OccursInRight("\n", t3, names, |w.excludedIntro|);
    OccursInRight(source.poetryText, t2, names, 1 + |w.excludedIntro|);
    OccursInRight(head, t1, names, |source.poetryText| + (1 + |w.excludedIntro|));
  }

  /** Where the source type starts in a filled prompt: right after the
      count and the text that closes it (which ends with the type label). */
  function TypeStart(w: Wording, requestedCount: int): nat {
    |w.opening| + |IntText(requestedCount)| + |w.countClosing|
  }

  /** Where the book starts in a filled prompt: after the source type and the book label. */
  function BookStart(w: Wording, source: PoetrySource, requestedCount: int): nat {
    TypeStart(w, requestedCount) + |SourceTypeName(source.sourceType)| + |w.bookLabel|
  }

  /** Text found in the source lines is found in the filled prompt, behind
      the opening and the count. */
  lemma {:induction false} InSourceLines(w: Wording, source: PoetrySource, requestedCount: int, excludedNames: seq<string>, t: string, i: int, at: int)
    requires OccursAt(SourceLines(w, source), t, i)
    requires at == |w.opening| + |IntText(requestedCount)| + i
    ensures OccursAt(FillPrompt(w, source, requestedCount, excludedNames), t, at)
  {
    var lines := SourceLines(w, source);
    var count := IntText(requestedCount);
    OccursInRight(count, lines, t, i);
    OccursInRight(w.opening, count + lines, t, |count| + i);
    OccursInLeft(PromptHead(w, source, requestedCount), PoemAndAfter(w, source, excludedNames),
                 t, |w.opening| + (|count| + i));
  }

  /** Where each of four right-nested parts stands in their concatenation. */
  lemma {:induction false} FourParts(p1: string, p2: string, p3: string, p4: string, p5: string)
    ensures var x := p1 + (p2 + (p3 + (p4 + p5)));
            && OccursAt(x, p1, 0) && OccursAt(x, p2, |p1|)
            && OccursAt(x, p3, |p1| + |p2|) && OccursAt(x, p4, |p1| + |p2| + |p3|)
  {
    var s4 := p4 + p5;
    var s3 := p3 + s4;
    var s2 := p2 + s3;
    OccursAtStart(p1, s2);
    OccursAtStart(p2, s3);
    OccursInRight(p1, s2, p2, 0);
    OccursAtStart(p3, s4);
    OccursInRight(p2, s3, p3, 0);
    OccursInRight(p1, s2, p3, |p2|);
    OccursAtStart(p4, p5);
    OccursInRight(p3, s4, p4, 0);
    OccursInRight(p2, s3, p4, |p3|);
    OccursInRight(p1, s2, p4, |p2| + |p3|);
  }

  /** The source lines in order: the type label, the source type, the book
      label and the book text. */
  lemma {:induction false} SourceLinesLayout(w: Wording, source: PoetrySource)
    ensures var s, c, tn := SourceLines(w, source), w.countClosing, SourceTypeName(source.sourceType);
            && OccursAt(s, c, 0) && OccursAt(s, tn, |c|)
            && OccursAt(s, w.bookLabel, |c| + |tn|)
            && OccursAt(s, BookText(source.book, w.unspecified), |c| + |tn| + |w.bookLabel|)
  {
    var bt := BookText(source.book, w.unspecified);
    assert SourceLines(w, source)
        == w.countClosing + (SourceTypeName(source.sourceType) + (w.bookLabel + (bt + w.poemLabel)));
    FourParts(w.countClosing, SourceTypeName(source.sourceType), w.bookLabel, bt, w.poemLabel);
  }

  /** A filled prompt closes the count with the type label, followed by the
      source type. */
  lemma {:induction false} FillPromptHoldsType(w: Wording, source: PoetrySource, requestedCount: int, excludedNames: seq<string>)
    ensures var r, o := FillPrompt(w, source, requestedCount, excludedNames), TypeStart(w, requestedCount);
            && OccursAt(r, w.countClosing, o - |w.countClosing|)
            && OccursAt(r, SourceTypeName(source.sourceType), o)
  {
    var c := w.countClosing;
    SourceLinesLayout(w, source);
    var o := TypeStart(w, requestedCount);
    InSourceLines(w, source, requestedCount, excludedNames, c, 0, o - |c|);
    InSourceLines(w, source, requestedCount, excludedNames, SourceTypeName(source.sourceType), |c|, o);
  }

  /** A filled prompt holds the book label after the source type, followed
      by the book text. */
  lemma {:induction false} FillPromptHoldsBook(w: Wording, source: PoetrySource, requestedCount: int, excludedNames: seq<string>)
    ensures var r, b := FillPrompt(w, source, requestedCount, excludedNames), BookStart(w, source, requestedCount);
            && OccursAt(r, w.bookLabel, b - |w.bookLabel|)
            && OccursAt(r, BookText(source.book, w.unspecified), b)
  {
    var b := BookStart(w, source, requestedCount);
    SourceLinesLayout(w, source);
    BookLabelAt(w, source, requestedCount, excludedNames, b);
    BookTextAt(w, source, requestedCount, excludedNames, b);
  }

  /** The book label found in the source lines, seen in the filled prompt. */
  lemma {:induction false} BookLabelAt(w: Wording, source: PoetrySource, requestedCount: int, excludedNames: seq<string>, b: int)
    requires b == BookStart(w, source, requestedCount)
    requires OccursAt(SourceLines(w, source), w.bookLabel, |w.countClosing| + |SourceTypeName(source.sourceType)|)
    ensures OccursAt(FillPrompt(w, source, requestedCount, excludedNames), w.bookLabel, b - |w.bookLabel|)
  {
    var i := |w.countClosing| + |SourceTypeName(source.sourceType)|;
    InSourceLines(w, source, requestedCount, excludedNames, w.bookLabel, i, b - |w.bookLabel|);
  }

  /** The book text found in the source lines, seen in the filled prompt. */
  lemma {:induction false} BookTextAt(w: Wording, source: PoetrySource, requestedCount: int, excludedNames: seq<string>, b: int)
    requires b == BookStart(w, source, requestedCount)
    requires OccursAt(SourceLines(w, source), BookText(source.book, w.unspecified),
                      |w.countClosing| + |SourceTypeName(source.sourceType)| + |w.bookLabel|)
    ensures OccursAt(FillPrompt(w, source, requestedCount, excludedNames), BookText(source.book, w.unspecified), b)
  {
    var i := |w.countClosing| + |SourceTypeName(source.sourceType)| + |w.bookLabel|;
    InSourceLines(w, source, requestedCount, excludedNames, BookText(source.book, w.unspecified), i, b);
  }

  /** A filled prompt names the source: the type label closes the count and
      is followed by the source type; the book label follows, and then the
      book, or the placeholder when the book is absent or empty. */
  lemma {:induction false} FillPromptHoldsSource(w: Wording, source: PoetrySource, requestedCount: int, excludedNames: seq<string>)
    ensures var r := FillPrompt(w, source, requestedCount, excludedNames);
            var o, b := TypeStart(w, requestedCount), BookStart(w, source, requestedCount);
            && OccursAt(r, w.countClosing, o - |w.countClosing|)
            && OccursAt(r, SourceTypeName(source.sourceType), o)
            && OccursAt(r, w.bookLabel, b - |w.bookLabel|)
            && (source.book.Some? && source.book.value != [] ==> OccursAt(r, source.book.value, b))
            && (source.book.None? || source.book.value == [] ==> OccursAt(r, w.unspecified, b))
  {
    FillPromptHoldsType(w, source, requestedCount, excludedNames);
    FillPromptHoldsBook(w, source, requestedCount, excludedNames);
    var bt := BookText(source.book, w.unspecified);
    if source.book.Some? && source.book.value != [] {
      assert bt == source.book.value;
    } else {
      assert bt == w.unspecified;
    }
  }

  /** `buildGenerationPrompt` names the source type after `来源类型：` and the
      book, or `未指定`, after `来源书目：`. */
  lemma {:induction false} PromptNamesSource(source: PoetrySource, requestedCount: int, excludedNames: seq<string>)
    ensures var r := BuildGenerationPrompt(source, requestedCount, excludedNames);
            var w := PromptWording;
            var o, b := TypeStart(w, requestedCount), BookStart(w, source, requestedCount);
            && OccursAt(r, w.countClosing, o - |w.countClosing|)
            && OccursAt(r, SourceTypeName(source.sourceType), o)
            && OccursAt(r, w.bookLabel, b - |w.bookLabel|)
            && (source.book.Some? && source.book.value != [] ==> OccursAt(r, source.book.value, b))
            && (source.book.None? || source.book.value == [] ==> OccursAt(r, w.unspecified, b))
  {
    FillPromptHoldsSource(PromptWording, source, requestedCount, excludedNames);
  }

  /** `buildGenerationPrompt`: the task and the count, the source, the poem
      text in full, the names to avoid, and the fixed instructions on the JSON
      answer. */
  function BuildGenerationPrompt(source: PoetrySource, requestedCount: int, excludedNames: seq<string>): (r: string)
    ensures OccursAt(r, PromptWording.opening, 0)
    ensures OccursAt(r, source.poetryText, |PromptHead(PromptWording, source, requestedCount)|)
    ensures excludedNames != [] ==>
      OccursAt(r, JoinWith(excludedNames, PromptWording.separator), ExcludedStart(PromptWording, source, requestedCount))
  {
    var w := PromptWording;
    FillPromptHoldsPoem(w, source, requestedCount, excludedNames);
    FillPromptHoldsExcludedNames(w, source, requestedCount, excludedNames);
    FillPrompt(w, source, requestedCount, excludedNames)
  }

  /** The count stated in a filled prompt reads back as the requested count:
      the digits right after the opening denote it, and no further digit
      follows when the wording goes on with something else. */
  lemma {:induction false} FillPromptStatesCount(w: Wording, source: PoetrySource, requestedCount: nat, excludedNames: seq<string>)
    requires w.countClosing != [] && !IsDigit(w.countClosing[0])
    ensures var r := FillPrompt(w, source, requestedCount, excludedNames);
            var o, digits := |w.opening|, Decimal(requestedCount);
            && OccursAt(r, digits, o)
            && DigitsValue(r[o..o + |digits|]) == requestedCount
            && !IsDigit(r[o + |digits|])
  {
    var lines := SourceLines(w, source);
    SourceLinesOpen(w, source);
    var more := lines[|w.countClosing|..];
    var digits := Decimal(requestedCount);
    var tail := PoemAndAfter(w, source, excludedNames);
    assert IntText(requestedCount) == digits;
    var r := (w.opening + (digits + (w.countClosing + more))) + tail;
    assert FillPrompt(w, source, requestedCount, excludedNames) == r by {
      assert PromptHead(w, source, requestedCount) == w.opening + (digits + lines);
    }
    CountReadBack(w.opening, digits, w.countClosing, more, tail);
    var o := |w.opening|;
    assert r[o..o + |digits|] == digits;
    DecimalValue(requestedCount);
  }

  /** The source lines begin with the type label that closes the count. */
  lemma {:induction false} SourceLinesOpen(w: Wording, source: PoetrySource)
    ensures var lines := SourceLines(w, source);
            |w.countClosing| <= |lines| && lines == w.countClosing + lines[|w.countClosing|..]
  {
  }

  /** Digits followed by a text that does not start with a digit are read
      back whole, wherever they stand. */
  lemma {:induction false} CountReadBack(opening: string, digits: string, closing: string, more: string, tail: string)
    requires closing != [] && !IsDigit(closing[0])
    ensures var r, o := (opening + (digits + (closing + more))) + tail, |opening|;
            && OccursAt(r, digits, o)
            && r[o..o + |digits|] == digits
            && r[o + |digits|] == closing[0]
  {
    var r := (opening + (digits + (closing + more))) + tail;
    var o := |opening|;
    assert r[o..o + |digits|] == digits;
    assert r[o + |digits|] == closing[0];
  }

  /** A joined list found in a text splits back into its parts. */
  lemma ReadBackList(r: string, i: nat, parts: seq<string>, sep: char)
    requires |parts| > 0 && forall k | 0 <= k < |parts| :: sep !in parts[k]
    requires OccursAt(r, JoinWith(parts, sep), i)
    ensures Split(r[i..i + |JoinWith(parts, sep)|], sep) == parts
  {
    SplitJoin(parts, sep);
  }

  /** The names to avoid can be read back from a filled prompt when none of
      them holds the separator. */
  lemma {:induction false} FillPromptListsExcludedNames(w: Wording, source: PoetrySource, requestedCount: int, excludedNames: seq<string>)
    requires excludedNames != []
    requires forall k | 0 <= k < |excludedNames| :: w.separator !in excludedNames[k]
    ensures var r := FillPrompt(w, source, requestedCount, excludedNames);
            var i := ExcludedStart(w, source, requestedCount);
            var j := i + |JoinWith(excludedNames, w.separator)|;
            i <= j <= |r| && Split(r[i..j], w.separator) == excludedNames
  {
    FillPromptHoldsExcludedNames(w, source, requestedCount, excludedNames);
    ReadBackList(FillPrompt(w, source, requestedCount, excludedNames),
                 ExcludedStart(w, source, requestedCount), excludedNames, w.separator);
  }

  /** The prompt's own wording goes on after the count with a space. */
  lemma {:induction false} PromptStatesCount(source: PoetrySource, requestedCount: nat, excludedNames: seq<string>)
    ensures var r := BuildGenerationPrompt(source, requestedCount, excludedNames);
            var o, digits := |PromptWording.opening|, Decimal(requestedCount);
            && OccursAt(r, digits, o)
            && DigitsValue(r[o..o + |digits|]) == requestedCount
  {
    assert PromptWording.countClosing[0] == ' ';
    FillPromptStatesCount(PromptWording, source, requestedCount, excludedNames);
  }
}

=== FILE: attempts.dfy ===
/**
 * Repeated random attempts.  `genNames` calls `genName` a number of times,
 * each call consuming random draws where the previous one stopped, and keeps
 * the calls that produced a name.  The repetition is stated once here, over
 * an arbitrary step, so that its laws do not depend on what a step computes.
 */
module Attempts {
  import opened Wrappers
  import opened Text

  /** One attempt: its result, if any, and the draw position after it. */
  datatype Attempt<T> = Attempt(result: Option<T>, pos: nat)

  /** The kept results of several attempts and the draw position after them. */
  datatype Batch<T> = Batch(results: seq<T>, pos: nat)

  /** What an attempt contributes to the kept results. */
  function Kept<T>(a: Attempt<T>): (r: seq<T>)
    ensures a.result.None? <==> r == []
    ensures a.result.Some? ==> r == [a.result.value]
  {
    if a.result.Some? then [a.result.value] else []
  }

  /** `count` attempts of `step`, the first at draw position `pos` and each
      next one where the previous left off, keeping the results the attempts
      return in attempt order. */
  function Repeat<T>(step: nat -> Attempt<T>, count: int, pos: nat): (r: Batch<T>)
    ensures |r.results| <= if count < 0 then 0 else count
    decreases count
  {
    if count <= 0 then Batch([], pos)
    else
      var a := step(pos);
      var rest := Repeat(step, count - 1, a.pos);
      Batch(Kept(a) + rest.results, rest.pos)
  }

  /** A property every result of a step has, every result `Repeat` keeps has. */
  lemma {:induction false} RepeatKeeps<T>(step: nat -> Attempt<T>, count: int, pos: nat, P: T -> bool)
    requires forall p: nat :: step(p).result.Some? ==> P(step(p).result.value)
    ensures forall k | 0 <= k < |Repeat(step, count, pos).results| :: P(Repeat(step, count, pos).results[k])
    decreases count
  {
    if count > 0 {
      RepeatKeeps(step, count - 1, step(pos).pos, P);
    }
  }

  /** When no step moves the draw position backwards, neither does `Repeat`. */
  lemma {:induction false} RepeatMovesForward<T>(step: nat -> Attempt<T>, count: int, pos: nat)
    requires forall p: nat :: step(p).pos >= p
    ensures Repeat(step, count, pos).pos >= pos
    decreases count
  {
    if count > 0 {
      RepeatMovesForward(step, count - 1, step(pos).pos);
    }
  }

  /** One attempt followed by the remaining `count - 1`. */
  lemma RepeatStep<T>(step: nat -> Attempt<T>, count: int, pos: nat)
    requires count > 0
    ensures var rest := Repeat(step, count - 1, step(pos).pos);
            Repeat(step, count, pos) == Batch(Kept(step(pos)) + rest.results, rest.pos)
  {
  }

  /** Attempt order: `a + b` attempts keep the results of the first `a` attempts
      followed by those of the next `b`. */
  lemma {:induction false} RepeatAppend<T>(step: nat -> Attempt<T>, a: nat, b: nat, pos: nat)
    ensures var first := Repeat(step, a, pos);
            var second := Repeat(step, b, first.pos);
            var both := Repeat(step, a + b, pos);
            both.results == first.results + second.results && both.pos == second.pos
    decreases a
  {
    if a > 0 {
      var g := step(pos);
      RepeatAppend(step, a - 1, b, g.pos);
      var first' := Repeat(step, a - 1, g.pos);
      var second := Repeat(step, b, first'.pos);
      RepeatStep(step, a, pos);
      RepeatStep(step, a + b, pos);
      assert (a + b) - 1 == (a - 1) + b;
      SeqAssoc(Kept(g), first'.results, second.results);
    }
  }


  /** A single attempt keeps exactly its own result. */
  lemma RepeatOne<T>(step: nat -> Attempt<T>, pos: nat)
    ensures Repeat(step, 1, pos) == Batch(Kept(step(pos)), step(pos).pos)
  {
    assert Repeat(step, 0, step(pos).pos) == Batch([], step(pos).pos);
    assert Kept(step(pos)) + [] == Kept(step(pos));
  }

  /** When every attempt returns a result, `count` attempts keep `count` results. */
  lemma {:induction false} RepeatAllKept<T>(step: nat -> Attempt<T>, count: nat, pos: nat)
    requires forall p: nat :: step(p).result.Some?
    ensures |Repeat(step, count, pos).results| == count
    decreases count
  {
    if count > 0 {
      RepeatAllKept(step, count - 1, step(pos).pos);
    }
  }
}

=== FILE: json.dfy ===
/**
 * JSON values as `JSON.parse` returns them, and the JavaScript property
 * accesses the response parsers make on them: `v.key`, which throws on
 * `null` and `undefined`, and `v?.key`, which yields `undefined` there.
 * Only own properties are modelled; none of the keys the parsers read is
 * inherited from a prototype.
 */
module Json {
  import opened Wrappers

  /** A parsed JSON value.  Numbers are exact; the parsers never compute with
      them.  An object maps each key to the value `JSON.parse` keeps for it. */
  datatype Json =
    | JNull
    | JBool(b: bool)
    | JNumber(n: real)
    | JString(str: string)
    | JArray(items: seq<Json>)
    | JObject(fields: map<string, Json>)

  /** A JavaScript value reached by property access: `undefined`, or a JSON value. */
  datatype Value = Undefined | Defined(json: Json)

  /** `null` or `undefined`: the values property access throws on. */
  predicate IsNullish(v: Value) {
    v.Undefined? || v.json.JNull?
  }

  predicate IsDigit(c: char) {
    '0' <= c <= '9'
  }

  function DigitValue(c: char): nat
    requires IsDigit(c)
  {
    (c - '0') as nat
  }

  function DigitChar(d: nat): (c: char)
    requires d < 10
    ensures IsDigit(c) && DigitValue(c) == d
  {
    ('0' as int + d) as char
  }

  /** The decimal digits `String(n)` writes for a natural number. */
  function Decimal(n: nat): (s: string)
    ensures |s| > 0 && forall i | 0 <= i < |s| :: IsDigit(s[i])
    ensures s[0] == '0' ==> n == 0 && s == "0"
  {
    if n < 10 then [DigitChar(n)] else Decimal(n / 10) + [DigitChar(n % 10)]
  }

  /** The number a string of decimal digits denotes. */
  function DigitsValue(s: string): nat
    requires forall i | 0 <= i < |s| :: IsDigit(s[i])
  {
    if s == [] then 0 else DigitsValue(s[..|s| - 1]) * 10 + DigitValue(s[|s| - 1])
  }

  /** `key` names an array element: the canonical decimal form of an index,
      digits only and no leading zero. */
  function ArrayIndex(key: string): (r: Option<nat>)
    ensures r.Some? ==> |key| > 0 && forall i | 0 <= i < |key| :: IsDigit(key[i])
  {
    if key != [] && (forall i | 0 <= i < |key| :: IsDigit(key[i])) && (key[0] != '0' || |key| == 1)
    then Some(DigitsValue(key))
    else None
  }

  /** Reading the digits of `Decimal(n)` gives `n` back. */
  lemma {:induction false} DecimalValue(n: nat)
    ensures DigitsValue(Decimal(n)) == n
  {
    if n >= 10 {
      DecimalValue(n / 10);
      var s := Decimal(n);
      assert s[..|s| - 1] == Decimal(n / 10);
    }
  }

  /** The property key `[n]` looks up is an array index denoting `n`. */
  lemma DecimalIsArrayIndex(n: nat)
    ensures ArrayIndex(Decimal(n)) == Some(n)
  {
    DecimalValue(n);
  }

  /** The own property `key` of a JSON value: an object's member, an array's
      element, or a string's one-character element; `undefined` otherwise. */
  function OwnProperty(v: Json, key: string): (r: Value)
    ensures v.JObject? ==> (r.Defined? <==> key in v.fields)
    ensures v.JObject? && key in v.fields ==> r == Defined(v.fields[key])
    ensures v.JArray? ==> (r.Defined? <==> ArrayIndex(key).Some? && ArrayIndex(key).value < |v.items|)
    ensures v.JArray? && r.Defined? ==> r.json == v.items[ArrayIndex(key).value]
    ensures v.JString? ==> (r.Defined? <==> ArrayIndex(key).Some? && ArrayIndex(key).value < |v.str|)
    ensures v.JString? && r.Defined? ==> r.json == JString([v.str[ArrayIndex(key).value]])
    ensures v.JNull? || v.JBool? || v.JNumber? ==> r.Undefined?
  {
    match v
    case JObject(fields) => if key in fields then Defined(fields[key]) else Undefined
    case JArray(items) =>
      (match ArrayIndex(key)
       case Some(i) => if i < |items| then Defined(items[i]) else Undefined
       case None => Undefined)
    case JString(s) =>
      (match ArrayIndex(key)
       case Some(i) => if i < |s| then Defined(JString([s[i]])) else Undefined
       case None => Undefined)
    case _ => Undefined
  }

  /** `v.key`: None when it throws a TypeError, which happens exactly on
      `null` and `undefined`. */
  function Get(v: Value, key: string): (r: Option<Value>)
    ensures r.None? <==> IsNullish(v)
    ensures r.Some? ==> r.value == OwnProperty(v.json, key)
  {
    if IsNullish(v) then None else Some(OwnProperty(v.json, key))
  }

  /** `v?.key`: `undefined` on `null` and `undefined`, never throws. */
  function OptionalGet(v: Value, key: string): (r: Value)
    ensures IsNullish(v) ==> r.Undefined?
    ensures !IsNullish(v) ==> Get(v, key) == Some(r)
  {
    if IsNullish(v) then Undefined else OwnProperty(v.json, key)
  }

  /** `typeof v === "string" ? v : …`: the string held by `v`, if it is one. */
  function AsString(v: Value): (r: Option<string>)
    ensures r.Some? <==> v.Defined? && v.json.JString?
    ensures r.Some? ==> v == Defined(JString(r.value))
  {
    if v.Defined? && v.json.JString? then Some(v.json.str) else None
  }
}

=== FILE: namer.dfy ===
/**
 * Local name synthesis: poem text is normalised, cut into sentences, one
 * sentence is cleaned of punctuation and inauspicious characters, and two of
 * its characters, taken in text order, become the name.
 */
module Namer {
  import opened Wrappers
  import opened Text
  import opened Rand
  import opened Attempts

  /** Characters never allowed in a generated name (the `BAD_CHARS` setting). */
  const BadChars := "胸鬼懒禽鸟鸡我罪凶丑仇鼠蟋蟀淫秽狐鸡鸭蝇肉苦犬吠窥血丧饥搔父母昏狗蟊痛死潦哀痒害蛇牲妇狸鹅穴畜烂兽靡爪氓劫鬣螽婚姻匪婆羞辱"

  /** The character class `cleanPunctuation` deletes. */
  const Punctuation := "<>《》！*(^)$%~!@#…&%￥—+=、。，？；\'\'\"\"：·`"

  /** The marks that end a sentence. */
  const Terminals := "！。？；"

  /** The separator `splitSentence` inserts after each terminal mark. */
  const Bar := '|'

  /** How many names `genNames` makes when no count is given (`NAME_AMOUNT`). */
  const NameAmount := 6

  /** How many times `getTwoChar` redraws the second index at most. */
  const MaxRedraws := 101

  datatype PoemEntry = PoemEntry(author: string, dynasty: string, content: string, book: string, title: string)

  datatype GeneratedName = GeneratedName(
    name: string, sentence: string, content: string,
    title: string, author: string, book: string, dynasty: string)

  // ---------------------------------------------------------------------------
  // formatStr

  /** A character of the class `(\s|　|"|")`: whitespace or a double quote. */
  predicate IsBlank(c: char) {
    IsWhitespace(c) || c == '"'
  }

  /** The length of the match of the first pattern of `formatStr` at the start
      of `s`: a blank, or one of the tokens `<br>`, `<p>`, `</p>`; 0 when none
      starts there.  A run of blanks is deleted one blank at a time, which
      deletes the same characters. */
  function TokenLength(s: string): (n: nat)
    ensures n <= |s|
    ensures n == 0 ==> s == [] || !IsBlank(s[0])
    ensures s != [] && !IsBlank(s[0]) && s[0] != '<' ==> n == 0
  {
    if s == [] then 0
    else if IsBlank(s[0]) then 1
    else if s[0] != '<' then 0
    else if 4 <= |s| && s[1] == 'b' && s[2] == 'r' && s[3] == '>' then 4
    else if 4 <= |s| && s[1] == '/' && s[2] == 'p' && s[3] == '>' then 4
    else if 3 <= |s| && s[1] == 'p' && s[2] == '>' then 3
    else 0
  }

  /** First pass of `formatStr`: one left-to-right global replace deleting runs
      of blanks and the tokens `<br>`, `<p>` and `</p>`.  Text that only becomes
      a token once something else is deleted is not scanned again. */
  function StripBlanksAndMarkup(s: string): (r: string)
    ensures forall i | 0 <= i < |r| :: !IsBlank(r[i])
    decreases |s|
  {
    if s == [] then []
    else if TokenLength(s) > 0 then StripBlanksAndMarkup(s[TokenLength(s)..])
    else [s[0]] + StripBlanksAndMarkup(s[1..])
  }

  /** The first pass only deletes: every character it keeps comes from the text. */
  lemma {:induction false} StripBlanksAndMarkupKeepsText(s: string)
    ensures forall i | 0 <= i < |StripBlanksAndMarkup(s)| :: StripBlanksAndMarkup(s)[i] in s
    decreases |s|
  {
    if s != [] {
      var n := TokenLength(s);
      if n > 0 {
        StripBlanksAndMarkupKeepsText(s[n..]);
      } else {
        StripBlanksAndMarkupKeepsText(s[1..]);
      }
    }
  }

  /** Text with no blank and no `<` passes the first pass unchanged. */
  lemma {:induction false} StripBlanksAndMarkupUnchanged(s: string)
    requires forall i | 0 <= i < |s| :: !IsBlank(s[i]) && s[i] != '<'
    ensures StripBlanksAndMarkup(s) == s
  {
    if s != [] {
      StripBlanksAndMarkupUnchanged(s[1..]);
      assert s == [s[0]] + s[1..];
    }
  }

  /** The markup tokens the first pass deletes. */
  predicate IsMarkup(t: string) {
    t == "<br>" || t == "<p>" || t == "</p>"
  }

  /** A markup token at the start of a text is matched whole. */
  lemma {:induction false} MarkupTokenLength(t: string, b: string)
    requires IsMarkup(t)
    ensures TokenLength(t + b) == |t| && (t + b)[|t|..] == b
  {
    var s := t + b;
    assert forall k | 0 <= k < |t| :: s[k] == t[k];
  }

  /** `rest` starts where a match of the first pattern could start: with a
      blank or with `<`.  No match reaches across such a start. */
  predicate StartsBoundary(rest: string) {
    rest != [] && (rest[0] == '<' || IsBlank(rest[0]))
  }

  /** The token starting in `a` is the same whatever follows `a` from a
      boundary on: `<` and blanks occur in a token only as its first character. */
  lemma {:induction false} TokenLengthWithin(a: string, rest: string)
    requires a != [] && StartsBoundary(rest)
    ensures TokenLength(a + rest) == TokenLength(a)
  {
    var s := a + rest;
    assert forall k | 0 <= k < |a| :: s[k] == a[k];
    assert s[|a|] == rest[0];
  }

  /** The first pass treats a text that starts at a boundary independently
      of what precedes it: nothing it deletes runs across the boundary. */
  lemma {:induction false} StripSplitsAtBoundary(a: string, rest: string)
    requires StartsBoundary(rest)
    ensures StripBlanksAndMarkup(a + rest) == StripBlanksAndMarkup(a) + StripBlanksAndMarkup(rest)
    decreases |a|
  {
    if a == [] {
      var x := StripBlanksAndMarkup(rest);
      assert a + rest == rest;
      assert StripBlanksAndMarkup(a) == [];
      assert [] + x == x;
    } else if TokenLength(a) > 0 {
      StripSplitsAtBoundary(a[TokenLength(a)..], rest);
      SplitAfterToken(a, rest);
    } else {
      StripSplitsAtBoundary(a[1..], rest);
      SplitAfterKept(a, rest);
    }
  }

  /** Dropping a prefix of the left part of a concatenation. */
  lemma DropInLeft(a: string, b: string, n: nat)
    requires n <= |a|
    ensures (a + b)[n..] == a[n..] + b && (n < |a| ==> (a + b)[n] == a[n])
  {
  }

  /** One step of the first pass over a text that starts with a token. */
  lemma StripSkipsToken(s: string)
    requires TokenLength(s) > 0
    ensures StripBlanksAndMarkup(s) == StripBlanksAndMarkup(s[TokenLength(s)..])
  {
  }

  /** One step of the first pass over a text that starts with a kept character. */
  lemma StripKeepsFirst(s: string)
    requires s != [] && TokenLength(s) == 0
    ensures StripBlanksAndMarkup(s) == [s[0]] + StripBlanksAndMarkup(s[1..])
  {
  }

  /** Step of `StripSplitsAtBoundary` when `a` starts with a deleted token. */
  lemma {:induction false} SplitAfterToken(a: string, rest: string)
    requires StartsBoundary(rest) && a != [] && TokenLength(a) > 0
    requires var a' := a[TokenLength(a)..];
      StripBlanksAndMarkup(a' + rest) == StripBlanksAndMarkup(a') + StripBlanksAndMarkup(rest)
    ensures StripBlanksAndMarkup(a + rest) == StripBlanksAndMarkup(a) + StripBlanksAndMarkup(rest)
  {
    var s := a + rest;
    TokenLengthWithin(a, rest);
    var n := TokenLength(a);
    var a' := a[n..];
    DropInLeft(a, rest, n);
    StripSkipsToken(s);
    StripSkipsToken(a);
  }

  /** Step of `StripSplitsAtBoundary` when `a` starts with a kept character. */
  lemma {:induction false} SplitAfterKept(a: string, rest: string)
    requires StartsBoundary(rest) && a != [] && TokenLength(a) == 0
    requires StripBlanksAndMarkup(a[1..] + rest) == StripBlanksAndMarkup(a[1..]) + StripBlanksAndMarkup(rest)
    ensures StripBlanksAndMarkup(a + rest) == StripBlanksAndMarkup(a) + StripBlanksAndMarkup(rest)
  {
    var s := a + rest;
    TokenLengthWithin(a, rest);
    var a' := a[1..];
    DropInLeft(a, rest, 1);
    StripKeepsFirst(s);
    StripKeepsFirst(a);
    var x, y := StripBlanksAndMarkup(a'), StripBlanksAndMarkup(rest);
    SeqAssoc([a[0]], x, y);
  }

  /** The first pass deletes every `<br>`, `<p>` and `</p>` token in the
      text, wherever it stands: the text before and the text after are
      processed as if the token were not there. */
  lemma {:induction false} StripDeletesMarkup(a: string, t: string, b: string)
    requires IsMarkup(t)
    ensures StripBlanksAndMarkup(a + t + b) == StripBlanksAndMarkup(a) + StripBlanksAndMarkup(b)
  {
    var rest := t + b;
    assert a + t + b == a + rest;
    MarkupTokenLength(t, b);
    assert StripBlanksAndMarkup(rest) == StripBlanksAndMarkup(b);
    StripSplitsAtBoundary(a, rest);
  }

  /** The first pass deletes every blank and nothing next to it: the text
      before and the text after are processed as if the blank were not there. */
  lemma {:induction false} StripDeletesBlank(a: string, c: char, b: string)
    requires IsBlank(c)
    ensures StripBlanksAndMarkup(a + [c] + b) == StripBlanksAndMarkup(a) + StripBlanksAndMarkup(b)
  {
    var rest := [c] + b;
    assert a + [c] + b == a + rest;
    assert TokenLength(rest) == 1 && rest[1..] == b;
    assert StripBlanksAndMarkup(rest) == StripBlanksAndMarkup(b);
    StripSplitsAtBoundary(a, rest);
  }
  /** A `<` that starts none of `<br>`, `<p>`, `</p>` is not markup: the first
      pass keeps it and normalises the text on each side of it separately. */
  lemma {:induction false} StripKeepsStrayAngle(a: string, b: string)
    requires !HasPrefix(b, "br>") && !HasPrefix(b, "p>") && !HasPrefix(b, "/p>")
    ensures StripBlanksAndMarkup(a + ['<'] + b) == StripBlanksAndMarkup(a) + ['<'] + StripBlanksAndMarkup(b)
  {
    var rest := ['<'] + b;
    assert a + ['<'] + b == a + rest;
    assert rest[1..] == b;
    assert TokenLength(rest) == 0 by {
      if 2 <= |b| {
        assert b[..2] == [b[0], b[1]];
      }
      if 3 <= |b| {
        assert b[..3] == [b[0], b[1], b[2]];
      }
    }
    StripKeepsFirst(rest);
    StripSplitsAtBoundary(a, rest);
    SeqAssoc(StripBlanksAndMarkup(a), ['<'], StripBlanksAndMarkup(b));
  }


  /** A `<` followed by `<br>` starts no token. */
  lemma AngleBeforeBreak(u: string)
    ensures TokenLength(['<'] + ("<br>" + u)) == 0
  {
    var s := ['<'] + ("<br>" + u);
    assert s[..4][1] == '<' && s[..3][1] == '<';
  }

  /** `<br>` is a token of four characters. */
  lemma BreakToken(u: string)
    ensures TokenLength("<br>" + u) == 4 && ("<br>" + u)[4..] == u
  {
    assert ("<br>" + u)[..4] == "<br>";
  }

  /** The single pass can leave a token behind: the `<br>` after a `<` is
      deleted and the `<` stays, so `<<br>br>` becomes `<br>`. */
  lemma MarkupCanSurvive(u: string)
    requires forall i | 0 <= i < |u| :: !IsBlank(u[i]) && u[i] != '<'
    ensures StripBlanksAndMarkup(['<'] + ("<br>" + u)) == ['<'] + u
  {
    var t := "<br>" + u;
    var s := ['<'] + t;
    AngleBeforeBreak(u);
    BreakToken(u);
    assert s[1..] == t;
    assert StripBlanksAndMarkup(s) == [s[0]] + StripBlanksAndMarkup(t);
    StripBlanksAndMarkupUnchanged(u);
  }

  function IndexOf(s: string, c: char): (r: Option<nat>)
    ensures r.Some? ==> r.value < |s| && s[r.value] == c
    ensures r.Some? ==> forall i | 0 <= i < r.value :: s[i] != c
    ensures r.None? ==> forall i | 0 <= i < |s| :: s[i] != c
  {
    if s == [] then None
    else if s[0] == c then Some(0)
    else match IndexOf(s[1..], c)
      case None => None
      case Some(i) => Some(i + 1)
  }

  function LastIndexOf(s: string, c: char): (r: Option<nat>)
    ensures r.Some? ==> r.value < |s| && s[r.value] == c
    ensures r.Some? ==> forall i | r.value < i < |s| :: s[i] != c
    ensures r.None? ==> forall i | 0 <= i < |s| :: s[i] != c
  {
    if s == [] then None
    else if s[|s| - 1] == c then Some(|s| - 1)
    else LastIndexOf(s[..|s| - 1], c)
  }

  /** Second pass of `formatStr`, the greedy global replace of `\(.+\)`. */
  function DropAnnotation(s: string): string
  {
    match (IndexOf(s, '('), LastIndexOf(s, ')'))
    case (Some(p), Some(q)) => if p + 2 <= q then s[..p] + s[q + 1..] else s
    case _ => s
  }

  /** `\(.+\)` matches `s[p..q+1]` (for text without line terminators). */
  predicate AnnotationAt(s: string, p: int, q: int) {
    0 <= p && p + 2 <= q < |s| && s[p] == '(' && s[q] == ')'
  }

  /** `r` is `s` with one annotation cut out: the span from the first `(` of
      `s` to its last `)`, which is a match of `\(.+\)`. */
  ghost predicate CutsOuterAnnotation(s: string, r: string) {
    exists p, q :: OuterCutAt(s, r, p, q)
  }

  /** `r` is `s` with `s[p..q+1]` cut out, where that span is a match of
      `\(.+\)` starting at the first `(` and ending at the last `)`. */
  predicate OuterCutAt(s: string, r: string, p: int, q: int) {
    && AnnotationAt(s, p, q)
    && (forall i | 0 <= i < p :: s[i] != '(')
    && (forall i | q < i < |s| :: s[i] != ')')
    && r == s[..p] + s[q + 1..]
  }

  /** When `\(.+\)` has no match, `DropAnnotation` leaves the text alone. */
  lemma DropAnnotationUnmatched(s: string)
    requires forall p, q :: !AnnotationAt(s, p, q)
    ensures DropAnnotation(s) == s
  {
    match (IndexOf(s, '('), LastIndexOf(s, ')'))
    case (Some(a), Some(b)) => assert !AnnotationAt(s, a, b);
    case _ =>
  }

  /** When `\(.+\)` matches somewhere, `DropAnnotation` cuts the outermost span. */
  lemma DropAnnotationMatched(s: string, p: int, q: int)
    requires AnnotationAt(s, p, q)
    ensures CutsOuterAnnotation(s, DropAnnotation(s))
  {
    var first, last := IndexOf(s, '('), LastIndexOf(s, ')');
    assert first.Some? by { assert s[p] == '('; }
    assert last.Some? by { assert s[q] == ')'; }
    var a, b := first.value, last.value;
    assert a <= p && q <= b;
    assert AnnotationAt(s, a, b);
    DropAnnotationCuts(s, a, b);
    assert OuterCutAt(s, DropAnnotation(s), a, b);
  }

  /** With the first `(` at `a` and the last `)` at `b`, far enough apart,
      `DropAnnotation` cuts `a..b` inclusive. */
  lemma DropAnnotationCuts(s: string, a: nat, b: nat)
    requires IndexOf(s, '(') == Some(a) && LastIndexOf(s, ')') == Some(b) && a + 2 <= b
    ensures DropAnnotation(s) == s[..a] + s[b + 1..]
  {
  }

  /** On text without line terminators `DropAnnotation` is the regular-expression
      replacement: when nothing matches the text is unchanged; otherwise one span
      is cut, from the first `(` to the last `)`, so no match begins before it,
      none ends after it, and no second match exists. */
  lemma DropAnnotationIsGreedyReplace(s: string)
    requires forall i | 0 <= i < |s| :: !IsLineTerminator(s[i])
    ensures (forall p, q :: !AnnotationAt(s, p, q)) ==> DropAnnotation(s) == s
    ensures (exists p, q :: AnnotationAt(s, p, q)) ==> CutsOuterAnnotation(s, DropAnnotation(s))
  {
    if exists p, q :: AnnotationAt(s, p, q) {
      var p, q :| AnnotationAt(s, p, q);
      DropAnnotationMatched(s, p, q);
    } else {
      DropAnnotationUnmatched(s);
    }
  }

  /** `formatStr`: strip blanks and markup, then cut the parenthesised annotation. */
  function FormatStr(s: string): (r: string)
    ensures forall i | 0 <= i < |r| :: !IsBlank(r[i]) && r[i] in s
  {
    var t := StripBlanksAndMarkup(s);
    StripBlanksAndMarkupKeepsText(s);
    var r := DropAnnotation(t);
    assert forall i | 0 <= i < |r| :: r[i] in t;
    r
  }

  // ---------------------------------------------------------------------------
  // splitSentence

  /** `replace(/！|。|？|；/g, s => s + "|")`. */
  function MarkTerminals(s: string): string
  {
    if s == [] then []
    else (if s[0] in Terminals then [s[0], Bar] else [s[0]]) + MarkTerminals(s[1..])
  }

  /** `replace(/\|$/g, "")`: at most one separator at the very end is removed. */
  function DropTrailingBar(s: string): string
  {
    if s != [] && s[|s| - 1] == Bar then s[..|s| - 1] else s
  }

  /** The pieces `splitSentence` cuts `content` into, before short ones are dropped. */
  function Pieces(content: string): seq<string>
  {
    Split(DropTrailingBar(MarkTerminals(FormatStr(content))), Bar)
  }

  /** `filter(item => item.length >= 2)`. */
  function KeepSentences(parts: seq<string>): (r: seq<string>)
    ensures |r| <= |parts|
    ensures forall k | 0 <= k < |r| :: |r[k]| >= 2
    ensures forall k | 0 <= k < |parts| && |parts[k]| >= 2 :: parts[k] in r
    ensures IsSubsequence(r, parts)
    ensures forall x :: multiset(r)[x] == if |x| >= 2 then multiset(parts)[x] else 0
  {
    if parts == [] then []
    else
      var rest := KeepSentences(parts[1..]);
      var r := if |parts[0]| >= 2 then [parts[0]] + rest else rest;
      KeepStepLength(parts, rest);
      KeepStepKeepsLong(parts, rest);
      KeepStepOrder(parts, rest);
      KeepStepCounts(parts, rest);
      r
  }

  /** Step of `KeepSentences`: the short first piece is dropped, a long one kept. */
  function KeepStep(parts: seq<string>, rest: seq<string>): seq<string>
    requires parts != []
  {
    if |parts[0]| >= 2 then [parts[0]] + rest else rest
  }

  lemma {:induction false} KeepStepLength(parts: seq<string>, rest: seq<string>)
    requires parts != [] && |rest| <= |parts[1..]|
    requires forall k | 0 <= k < |rest| :: |rest[k]| >= 2
    ensures var r := KeepStep(parts, rest);
            |r| <= |parts| && forall k | 0 <= k < |r| :: |r[k]| >= 2
  {
    var r := KeepStep(parts, rest);
    if |parts[0]| >= 2 {
      assert forall k | 1 <= k < |r| :: r[k] == rest[k - 1];
    }
  }

  lemma {:induction false} KeepStepKeepsLong(parts: seq<string>, rest: seq<string>)
    requires parts != []
    requires forall k | 0 <= k < |parts[1..]| && |parts[1..][k]| >= 2 :: parts[1..][k] in rest
    ensures var r := KeepStep(parts, rest);
            forall k | 0 <= k < |parts| && |parts[k]| >= 2 :: parts[k] in r
  {
    var r := KeepStep(parts, rest);
    forall k | 0 <= k < |parts| && |parts[k]| >= 2
      ensures parts[k] in r
    {
      if k > 0 {
        assert parts[k] == parts[1..][k - 1];
      }
    }
  }

  lemma {:induction false} KeepStepOrder(parts: seq<string>, rest: seq<string>)
    requires parts != [] && IsSubsequence(rest, parts[1..])
    ensures IsSubsequence(KeepStep(parts, rest), parts)
  {
    var r := KeepStep(parts, rest);
    if |parts[0]| >= 2 {
      assert r[0] == parts[0] && r[1..] == rest;
    }
  }

  lemma {:induction false} KeepStepCounts(parts: seq<string>, rest: seq<string>)
    requires parts != []
    requires forall x :: multiset(rest)[x] == if |x| >= 2 then multiset(parts[1..])[x] else 0
    ensures var r := KeepStep(parts, rest);
            forall x :: multiset(r)[x] == if |x| >= 2 then multiset(parts)[x] else 0
  {
    assert parts == [parts[0]] + parts[1..];
    assert multiset(parts) == multiset([parts[0]]) + multiset(parts[1..]);
    if |parts[0]| >= 2 {
      assert multiset([parts[0]] + rest) == multiset([parts[0]]) + multiset(rest);
    }
  }

  lemma {:induction false} KeepSentencesFromParts(parts: seq<string>)
    ensures forall k | 0 <= k < |KeepSentences(parts)| :: KeepSentences(parts)[k] in parts
  {
    if parts != [] {
      KeepSentencesFromParts(parts[1..]);
    }
  }

  /** `splitSentence`: the sentences of a poem, in text order. */
  function SplitSentence(content: string): (r: seq<string>)
    ensures content == [] ==> r == []
    ensures forall k | 0 <= k < |r| :: |r[k]| >= 2 && NoWhitespace(r[k]) && Bar !in r[k]
    ensures content != [] ==> IsSubsequence(r, Pieces(content))
    ensures content != [] ==> forall p | p in Pieces(content) && |p| >= 2 :: p in r
    ensures content != [] ==> forall x :: multiset(r)[x] == if |x| >= 2 then multiset(Pieces(content))[x] else 0
  {
    if content == [] then []
    else
      PiecesHaveNoBlank(content);
      KeepSentencesFromParts(Pieces(content));
      KeepSentences(Pieces(content))
  }

  /** No piece holds a blank or a `|`. */
  lemma PiecesHaveNoBlank(content: string)
    ensures forall k | 0 <= k < |Pieces(content)| :: NoWhitespace(Pieces(content)[k]) && Bar !in Pieces(content)[k]
  {
    var f := FormatStr(content);
    var t := DropTrailingBar(MarkTerminals(f));
    MarkTerminalsChars(f);
    assert forall i | 0 <= i < |t| :: t[i] == Bar || t[i] in f;
  }

  lemma {:induction false} MarkTerminalsChars(s: string)
    ensures forall i | 0 <= i < |MarkTerminals(s)| :: MarkTerminals(s)[i] == Bar || MarkTerminals(s)[i] in s
  {
    if s != [] {
      MarkTerminalsChars(s[1..]);
    }
  }

  /** A piece with no terminal mark except possibly as its last character. */
  predicate TerminalsOnlyAtEnd(p: string) {
    forall i | 0 <= i < |p| - 1 :: p[i] !in Terminals
  }

  predicate NoTerminal(p: string) {
    forall i | 0 <= i < |p| :: p[i] !in Terminals
  }

  predicate EndsInTerminal(p: string) {
    p != [] && p[|p| - 1] in Terminals
  }

  /** Marking distributes over a first character. */
  lemma MarkTerminalsCons(c: char, s: string)
    ensures MarkTerminals([c] + s) == (if c in Terminals then [c, Bar] else [c]) + MarkTerminals(s)
  {
    assert ([c] + s)[1..] == s;
  }

  /** A terminal mark closes a piece of its own at the front. */
  lemma SplitMarkedTerminal(c: char, s: string)
    requires c in Terminals
    ensures Split(MarkTerminals([c] + s), Bar) == [[c]] + Split(MarkTerminals(s), Bar)
  {
    MarkTerminalsCons(c, s);
    assert [c, Bar] + MarkTerminals(s) == [c] + [Bar] + MarkTerminals(s);
    SplitAtSep([c], MarkTerminals(s), Bar);
  }

  /** Any other character joins the first piece. */
  lemma SplitMarkedOther(c: char, s: string)
    requires c !in Terminals && c != Bar
    ensures var rest := Split(MarkTerminals(s), Bar);
            Split(MarkTerminals([c] + s), Bar) == [[c] + rest[0]] + rest[1..]
  {
    MarkTerminalsCons(c, s);
    var m := [c] + MarkTerminals(s);
    assert m[1..] == MarkTerminals(s);
  }

  /** Splitting marked text: the pieces glue back to the text, every piece but
      the last is a sentence closed by its terminal mark, and the last piece
      holds no terminal mark at all. */
  lemma {:induction false} SplitMarked(s: string)
    requires Bar !in s
    ensures var r := Split(MarkTerminals(s), Bar);
            && Concat(r) == s
            && (forall k | 0 <= k < |r| - 1 :: EndsInTerminal(r[k]))
            && (forall k | 0 <= k < |r| :: TerminalsOnlyAtEnd(r[k]))
            && NoTerminal(r[|r| - 1])
  {
    if s != [] {
      var c, t := s[0], s[1..];
      assert s == [c] + t;
      assert c != Bar && Bar !in t;
      SplitMarked(t);
      var rest := Split(MarkTerminals(t), Bar);
      if c in Terminals {
        SplitMarkedTerminal(c, t);
        SplitMarkedTerminalPieces(c, rest);
      } else {
        SplitMarkedOther(c, t);
        SplitMarkedOtherPieces(c, rest);
      }
    }
  }

  lemma SplitMarkedTerminalPieces(c: char, rest: seq<string>)
    requires c in Terminals && |rest| > 0
    requires forall k | 0 <= k < |rest| - 1 :: EndsInTerminal(rest[k])
    requires forall k | 0 <= k < |rest| :: TerminalsOnlyAtEnd(rest[k])
    requires NoTerminal(rest[|rest| - 1])
    ensures var r := [[c]] + rest;
            && Concat(r) == [c] + Concat(rest)
            && (forall k | 0 <= k < |r| - 1 :: EndsInTerminal(r[k]))
            && (forall k | 0 <= k < |r| :: TerminalsOnlyAtEnd(r[k]))
            && NoTerminal(r[|r| - 1])
  {
    var r := [[c]] + rest;
    assert r[1..] == rest;
    forall k | 1 <= k < |r| ensures r[k] == rest[k - 1] { }
  }

  /** Prefixing a piece with a character that is not a terminal mark keeps
      where its terminal marks are. */
  lemma ConsOtherPiece(c: char, p: string)
    requires c !in Terminals
    ensures TerminalsOnlyAtEnd(p) ==> TerminalsOnlyAtEnd([c] + p)
    ensures EndsInTerminal(p) ==> EndsInTerminal([c] + p)
    ensures NoTerminal(p) ==> NoTerminal([c] + p)
  {
    var q := [c] + p;
    forall i | 1 <= i < |q| ensures q[i] == p[i - 1] { }
  }

  lemma SplitMarkedOtherPieces(c: char, rest: seq<string>)
    requires c !in Terminals && |rest| > 0
    requires forall k | 0 <= k < |rest| - 1 :: EndsInTerminal(rest[k])
    requires forall k | 0 <= k < |rest| :: TerminalsOnlyAtEnd(rest[k])
    requires NoTerminal(rest[|rest| - 1])
    ensures var r := [[c] + rest[0]] + rest[1..];
            && Concat(r) == [c] + Concat(rest)
            && (forall k | 0 <= k < |r| - 1 :: EndsInTerminal(r[k]))
            && (forall k | 0 <= k < |r| :: TerminalsOnlyAtEnd(r[k]))
            && NoTerminal(r[|r| - 1])
  {
    var r := [[c] + rest[0]] + rest[1..];
    assert rest == [rest[0]] + rest[1..];
    ConcatMergeHead(c, rest[0], rest[1..]);
    forall k | 1 <= k < |r| ensures r[k] == rest[k] { }
    ConsOtherPiece(c, rest[0]);
  }

  lemma {:induction false} MarkTerminalsAppend(a: string, b: string)
    ensures MarkTerminals(a + b) == MarkTerminals(a) + MarkTerminals(b)
  {
    if a != [] {
      assert (a + b)[1..] == a[1..] + b;
      MarkTerminalsAppend(a[1..], b);
    } else {
      assert a + b == b;
    }
  }

  /** A separator at the very end adds one empty piece. */
  lemma {:induction false} SplitTrailingSep(x: string, sep: char)
    ensures Split(x + [sep], sep) == Split(x, sep) + [[]]
  {
    if x == [] {
      assert Split([sep], sep) == [[]] + Split([], sep);
    } else {
      assert (x + [sep])[1..] == x[1..] + [sep];
      SplitTrailingSep(x[1..], sep);
    }
  }

  /** When the formatted text ends with a terminal mark, the trailing `|` is
      dropped and with it the empty piece the split would end with. */
  lemma PiecesDropEmptyLast(f: string)
    requires f != [] && f[|f| - 1] in Terminals
    ensures var r := Split(MarkTerminals(f), Bar);
            Split(DropTrailingBar(MarkTerminals(f)), Bar) == r[..|r| - 1] && r[|r| - 1] == []
  {
    var f0, c := f[..|f| - 1], f[|f| - 1];
    assert f == f0 + [c];
    MarkTerminalsAppend(f0, [c]);
    assert MarkTerminals([c]) == [c, Bar] + MarkTerminals([]);
    var t := MarkTerminals(f0) + [c];
    assert MarkTerminals(f) == t + [Bar];
    SplitTrailingSep(t, Bar);
  }

  /** Otherwise the marked text does not end with `|` and nothing is dropped. */
  lemma PiecesKeepAll(f: string)
    requires Bar !in f
    requires f == [] || f[|f| - 1] !in Terminals
    ensures DropTrailingBar(MarkTerminals(f)) == MarkTerminals(f)
  {
    if f != [] {
      var f0, c := f[..|f| - 1], f[|f| - 1];
      assert f == f0 + [c];
      MarkTerminalsAppend(f0, [c]);
      assert MarkTerminals([c]) == [c] + MarkTerminals([]);
      assert c in f;
    }
  }

  /** The pieces of a text that ends with a terminal mark: those of the marked
      text without the final empty one. */
  lemma PiecesOfTerminated(f: string)
    requires Bar !in f && f != [] && f[|f| - 1] in Terminals
    ensures var ps := Split(DropTrailingBar(MarkTerminals(f)), Bar);
            && Concat(ps) == f
            && (forall k | 0 <= k < |ps| - 1 :: EndsInTerminal(ps[k]))
            && (forall k | 0 <= k < |ps| :: TerminalsOnlyAtEnd(ps[k]))
  {
    SplitMarked(f);
    PiecesDropEmptyLast(f);
    ButLastPieces(Split(MarkTerminals(f), Bar), f);
  }

  /** Dropping an empty last piece keeps the glued text and the shape of the other pieces. */
  lemma ButLastPieces(r: seq<string>, f: string)
    requires |r| > 0 && r[|r| - 1] == [] && Concat(r) == f
    requires forall k | 0 <= k < |r| - 1 :: EndsInTerminal(r[k])
    requires forall k | 0 <= k < |r| :: TerminalsOnlyAtEnd(r[k])
    ensures var ps := r[..|r| - 1];
            && Concat(ps) == f
            && (forall k | 0 <= k < |ps| - 1 :: EndsInTerminal(ps[k]))
            && (forall k | 0 <= k < |ps| :: TerminalsOnlyAtEnd(ps[k]))
  {
    var ps := r[..|r| - 1];
    assert r == ps + [[]];
    ConcatAppend(ps, [[]]);
    assert Concat([[]]) == [];
  }

  /** Assuming the formatted text holds no `|` of its own, the pieces of
      `splitSentence` glue back to the formatted text in order, every piece but
      the last ends with its terminal mark, and no terminal mark occurs inside a
      piece. */
  lemma PiecesAreSentences(content: string)
    requires Bar !in FormatStr(content)
    ensures var ps := Pieces(content);
            && Concat(ps) == FormatStr(content)
            && (forall k | 0 <= k < |ps| - 1 :: EndsInTerminal(ps[k]))
            && (forall k | 0 <= k < |ps| :: TerminalsOnlyAtEnd(ps[k]))
  {
    var f := FormatStr(content);
    if f != [] && f[|f| - 1] in Terminals {
      PiecesOfTerminated(f);
    } else {
      SplitMarked(f);
      PiecesKeepAll(f);
    }
  }

  // ---------------------------------------------------------------------------
  // cleanPunctuation, cleanBadChar

  /** `cleanPunctuation`: delete every character of the punctuation class. */
  function CleanPunctuation(s: string): (r: string)
    ensures forall i | 0 <= i < |r| :: r[i] !in Punctuation
    ensures IsSubsequence(r, s)
  {
    WithoutIsSubsequence(s, Punctuation);
    Without(s, Punctuation)
  }

  /** `cleanBadChar`: delete every character listed in `BadChars`. */
  function CleanBadChar(s: string): (r: string)
    ensures forall i | 0 <= i < |r| :: r[i] !in BadChars
    ensures IsSubsequence(r, s)
  {
    WithoutIsSubsequence(s, BadChars);
    Without(s, BadChars)
  }

  /** Both cleaners keep exactly the characters outside their set, as many times
      as they occurred; applying one twice is applying it once; text with
      nothing to remove comes back unchanged. */
  lemma CleanersKeepExactlyTheRest(s: string)
    ensures forall c :: multiset(CleanPunctuation(s))[c] == if c in Punctuation then 0 else multiset(s)[c]
    ensures forall c :: multiset(CleanBadChar(s))[c] == if c in BadChars then 0 else multiset(s)[c]
    ensures CleanPunctuation(CleanPunctuation(s)) == CleanPunctuation(s)
    ensures CleanBadChar(CleanBadChar(s)) == CleanBadChar(s)
    ensures (forall i | 0 <= i < |s| :: s[i] !in Punctuation) ==> CleanPunctuation(s) == s
    ensures (forall i | 0 <= i < |s| :: s[i] !in BadChars) ==> CleanBadChar(s) == s
  {
    WithoutCounts(s, Punctuation);
    WithoutCounts(s, BadChars);
    WithoutIdempotent(s, Punctuation);
    WithoutIdempotent(s, BadChars);
    if forall i | 0 <= i < |s| :: s[i] !in Punctuation {
      WithoutNoneDropped(s, Punctuation);
    }
    if forall i | 0 <= i < |s| :: s[i] !in BadChars {
      WithoutNoneDropped(s, BadChars);
    }
  }

  /** The sentence as `genName` cleans it before picking characters. */
  function CleanSentence(sentence: string): (r: string)
    ensures forall i | 0 <= i < |r| :: r[i] !in Punctuation && r[i] !in BadChars
  {
    var p := CleanPunctuation(sentence);
    var r := CleanBadChar(p);
    assert forall i | 0 <= i < |r| :: r[i] in p;
    r
  }

  // ---------------------------------------------------------------------------
  // getTwoChar

  /** The state of the redraw loop when it stops: the second index, the loop
      counter, and the number of draws consumed so far. */
  datatype Retry = Retry(second: nat, redraws: nat, pos: nat)

  /** The two indices `getTwoChar` ends up with, how often it redrew the
      second, and the number of draws consumed afterwards. */
  datatype Indices = Indices(first: nat, second: nat, redraws: nat, pos: nat)

  /** The result of `getTwoChar` together with the indices behind it. */
  datatype Pick = Pick(indices: Indices, name: string)

  /** The `while (second === first)` loop of `getTwoChar` entered with the
      counter at `cnt`: redraw while the indices collide, and leave after the
      redraw that takes the counter past 100. */
  function Redraw(n: nat, first: nat, second: nat, cnt: nat, draws: Draws, pos: nat): (r: Retry)
    requires 0 < n && second < n && cnt < MaxRedraws
    ensures cnt <= r.redraws <= MaxRedraws && r.second < n
    ensures r.pos == pos + (r.redraws - cnt)
    ensures r.second != first || r.redraws == MaxRedraws
    ensures r.redraws == cnt ==> r.second == second
    ensures r.redraws > cnt ==> second == first && r.second == draws(pos + (r.redraws - cnt) - 1, n)
    ensures forall k | pos <= k < pos + (r.redraws - cnt) - 1 :: draws(k, n) == first
    decreases MaxRedraws - cnt
  {
    if second != first then Retry(second, cnt, pos)
    else
      var s := draws(pos, n);
      if cnt + 1 >= MaxRedraws then Retry(s, cnt + 1, pos + 1)
      else Redraw(n, first, s, cnt + 1, draws, pos + 1)
  }

  /** The index draws of `getTwoChar` on `n` characters.  The contract pins
      them down: the first index is draw `pos`; the second is drawn again
      exactly while it keeps hitting the first index and the cap of 101
      redraws is not reached; the last second draw is the one kept. */
  function DrawIndices(n: nat, draws: Draws, pos: nat): (r: Indices)
    requires 0 < n
    ensures r.first == draws(pos, n)
    ensures r.redraws <= MaxRedraws
    ensures forall k | pos + 1 <= k < pos + 1 + r.redraws :: draws(k, n) == r.first
    ensures r.second == draws(pos + 1 + r.redraws, n)
    ensures r.second != r.first || r.redraws == MaxRedraws
    ensures r.pos == pos + 2 + r.redraws
  {
    var retry := Redraw(n, draws(pos, n), draws(pos + 1, n), 0, draws, pos + 2);
    RedrawFromStart(n, draws, pos, retry);
    Indices(draws(pos, n), retry.second, retry.redraws, retry.pos)
  }

  /** The redraw loop entered right after the first two draws, stated over
      its result `r`: every draw it skipped, counting the second one, equalled
      the first index, and it ends on the draw just taken. */
  lemma RedrawFromStart(n: nat, draws: Draws, pos: nat, r: Retry)
    requires 0 < n
    requires r.redraws == 0 ==> r.second == draws(pos + 1, n)
    requires r.redraws > 0 ==> draws(pos + 1, n) == draws(pos, n) && r.second == draws(pos + 2 + r.redraws - 1, n)
    requires forall k | pos + 2 <= k < pos + 2 + r.redraws - 1 :: draws(k, n) == draws(pos, n)
    ensures forall k | pos + 1 <= k < pos + 1 + r.redraws :: draws(k, n) == draws(pos, n)
    ensures r.second == draws(pos + 1 + r.redraws, n)
  {
    var redraws := r.redraws;
    forall k | pos + 1 <= k < pos + 1 + redraws
      ensures draws(k, n) == draws(pos, n)
    {
      if k == pos + 1 {
        assert redraws > 0;
      } else {
        assert pos + 2 <= k < pos + 2 + redraws - 1;
      }
    }
  }


  /** `getTwoChar`: join the characters at the two drawn indices in text order. */
  function GetTwoChar(arr: seq<char>, draws: Draws, pos: nat): (r: Pick)
    requires |arr| > 0
    ensures r.indices == DrawIndices(|arr|, draws, pos)
    ensures r.indices.first < |arr| && r.indices.second < |arr|
    ensures r.indices.first <= r.indices.second ==> r.name == [arr[r.indices.first], arr[r.indices.second]]
    ensures r.indices.second < r.indices.first ==> r.name == [arr[r.indices.second], arr[r.indices.first]]
  {
    var ix := DrawIndices(|arr|, draws, pos);
    var name := if ix.first <= ix.second then [arr[ix.first], arr[ix.second]] else [arr[ix.second], arr[ix.first]];
    Pick(ix, name)
  }

  /** The name is two characters of `arr` read in text order. */
  lemma TwoCharInTextOrder(arr: seq<char>, draws: Draws, pos: nat)
    requires |arr| > 0
    ensures var r := GetTwoChar(arr, draws, pos);
            exists i, j | 0 <= i <= j < |arr| :: r.name == [arr[i], arr[j]] && (i < j || r.indices.redraws == MaxRedraws)
  {
    var r := GetTwoChar(arr, draws, pos);
    var ix := r.indices;
    if ix.first <= ix.second {
      assert r.name == [arr[ix.first], arr[ix.second]];
    } else {
      assert r.name == [arr[ix.second], arr[ix.first]];
    }
  }

  // ---------------------------------------------------------------------------
  // genName, genNames

  /** `g` is a name `genName` can build from `poem`: one of the poem's sentences,
      cleaned, yields at positions i <= j the two characters of the name, and
      the poem's text and metadata are copied alongside. */
  ghost predicate DerivedFrom(g: GeneratedName, poem: PoemEntry) {
    && g.content == poem.content && g.title == poem.title && g.author == poem.author
    && g.book == poem.book && g.dynasty == poem.dynasty
    && g.sentence in SplitSentence(poem.content)
    && var clean := CleanSentence(g.sentence);
       && |clean| > 2
       && exists i, j | 0 <= i <= j < |clean| :: g.name == [clean[i], clean[j]]
  }

  /** `genName`: `null` when there is no poem, when the chosen poem has no text
      or no sentence, or when the chosen sentence keeps at most two characters
      after cleaning; otherwise a name derived from the chosen poem. */
  function GenName(poems: seq<PoemEntry>, draws: Draws, pos: nat): (r: Attempt<GeneratedName>)
    ensures r.pos >= pos
    ensures |poems| == 0 ==> r.result.None? && r.pos == pos
    ensures |poems| > 0 ==>
      var poem := poems[draws(pos, |poems|)];
      var sentences := SplitSentence(poem.content);
      && (poem.content == [] ==> r.result.None? && r.pos == pos + 1)
      && (sentences == [] ==> r.result.None? && r.pos == pos + 1)
      && (sentences != [] ==>
            var sentence := sentences[draws(pos + 1, |sentences|)];
            && (|CleanSentence(sentence)| <= 2 <==> r.result.None?)
            && (|CleanSentence(sentence)| <= 2 ==> r.pos == pos + 2)
            && (r.result.Some? ==> r.result.value.sentence == sentence))
    ensures r.result.Some? ==> |poems| > 0 && DerivedFrom(r.result.value, poems[draws(pos, |poems|)])
  {
    if |poems| == 0 then Attempt(None, pos)
    else
      var (poem, p1) := Choose(poems, draws, pos);
      if poem.content == [] then Attempt(None, p1)
      else
        var sentences := SplitSentence(poem.content);
        if |sentences| == 0 then Attempt(None, p1)
        else
          var (sentence, p2) := Choose(sentences, draws, p1);
          var clean := CleanSentence(sentence);
          if |clean| <= 2 then Attempt(None, p2)
          else
            var pick := GetTwoChar(clean, draws, p2);
            TwoCharInTextOrder(clean, draws, p2);
            var g := GeneratedName(pick.name, sentence, poem.content, poem.title, poem.author, poem.book, poem.dynasty);
            Attempt(Some(g), pick.indices.pos)
  }

  /** The name `genName` returns is `getTwoChar`'s pick from the cleaned
      sentence chosen by the first two draws, and the attempt ends where
      `getTwoChar`'s draws end. */
  lemma GenNamePicksTwoChar(poems: seq<PoemEntry>, draws: Draws, pos: nat)
    requires GenName(poems, draws, pos).result.Some?
    ensures var poem := poems[draws(pos, |poems|)];
            var sentences := SplitSentence(poem.content);
            var sentence := sentences[draws(pos + 1, |sentences|)];
            var pick := GetTwoChar(CleanSentence(sentence), draws, pos + 2);
            && GenName(poems, draws, pos).result.value.name == pick.name
            && GenName(poems, draws, pos).pos == pick.indices.pos
  {
  }

  /** The two characters of a generated name stand at different positions of
      the cleaned sentence unless `getTwoChar` used up all its redraws. */
  lemma GenNameDistinctPositions(poems: seq<PoemEntry>, draws: Draws, pos: nat)
    requires GenName(poems, draws, pos).result.Some?
    ensures var g := GenName(poems, draws, pos).result.value;
            var clean := CleanSentence(g.sentence);
            exists i, j | 0 <= i <= j < |clean| ::
              && g.name == [clean[i], clean[j]]
              && (i < j || GenName(poems, draws, pos).pos == pos + 2 + 2 + MaxRedraws)
  {
    GenNamePicksTwoChar(poems, draws, pos);
    var poem := poems[draws(pos, |poems|)];
    var sentences := SplitSentence(poem.content);
    var sentence := sentences[draws(pos + 1, |sentences|)];
    var clean := CleanSentence(sentence);
    var ix := GetTwoChar(clean, draws, pos + 2).indices;
    var g := GenName(poems, draws, pos).result.value;
    assert g.sentence == sentence;
    assert ix.pos == pos + 2 + 2 + ix.redraws;
    if ix.first <= ix.second {
      assert g.name == [clean[ix.first], clean[ix.second]];
    } else {
      assert g.name == [clean[ix.second], clean[ix.first]];
    }
  }

  /** A generated name is two characters long and holds no bad character and no
      punctuation. */
  lemma DerivedNameIsClean(g: GeneratedName, poem: PoemEntry)
    requires DerivedFrom(g, poem)
    ensures |g.name| == 2
    ensures forall i | 0 <= i < 2 :: g.name[i] !in BadChars && g.name[i] !in Punctuation
  {
  }

  /** `g` is derived from one of `poems`. */
  ghost predicate DerivedFromSome(g: GeneratedName, poems: seq<PoemEntry>) {
    exists p | p in poems :: DerivedFrom(g, p)
  }

  /** `genName` on `poems` as a step of `Repeat`. */
  function GenNameStep(poems: seq<PoemEntry>, draws: Draws): (step: nat -> Attempt<GeneratedName>)
    ensures forall p: nat :: step(p) == GenName(poems, draws, p)
  {
    (p: nat) => GenName(poems, draws, p)
  }

  /** A name `genName` returns comes from one of the poems it was given. */
  lemma GenNameFromSomePoem(poems: seq<PoemEntry>, draws: Draws, p: nat)
    ensures GenName(poems, draws, p).result.Some? ==> DerivedFromSome(GenName(poems, draws, p).result.value, poems)
  {
    if GenName(poems, draws, p).result.Some? {
      assert poems[draws(p, |poems|)] in poems;
    }
  }

  /** `genNames(poems, count)`: `count` calls of `genName`, keeping the non-null
      results. */
  function GenNames(poems: seq<PoemEntry>, count: int, draws: Draws, pos: nat): (r: Batch<GeneratedName>)
    ensures r.pos >= pos
    ensures |r.results| <= if count < 0 then 0 else count
    ensures |poems| == 0 ==> r.results == []
    ensures forall k | 0 <= k < |r.results| :: DerivedFromSome(r.results[k], poems)
  {
    GenNamesDerived(poems, count, draws, pos);
    Repeat(GenNameStep(poems, draws), count, pos)
  }

  /** The repetition behind `genNames` moves forward and keeps only names
      derived from one of the poems, so an empty pool gives none. */
  lemma {:induction false} GenNamesDerived(poems: seq<PoemEntry>, count: int, draws: Draws, pos: nat)
    ensures var r := Repeat(GenNameStep(poems, draws), count, pos);
            && r.pos >= pos
            && (forall k | 0 <= k < |r.results| :: DerivedFromSome(r.results[k], poems))
            && (|poems| == 0 ==> r.results == [])
  {
    var step := GenNameStep(poems, draws);
    forall p: nat ensures step(p).result.Some? ==> DerivedFromSome(step(p).result.value, poems) {
      GenNameFromSomePoem(poems, draws, p);
    }
    RepeatKeeps(step, count, pos, g => DerivedFromSome(g, poems));
    RepeatMovesForward(step, count, pos);
    var r := Repeat(step, count, pos);
    assert |r.results| > 0 ==> DerivedFromSome(r.results[0], poems);
  }

  /** Attempt order for `genNames`: the names of `a + b` attempts are those of
      the first `a` attempts followed by those of the next `b`. */
  lemma GenNamesInAttemptOrder(poems: seq<PoemEntry>, a: nat, b: nat, draws: Draws, pos: nat)
    ensures var first := GenNames(poems, a, draws, pos);
            var second := GenNames(poems, b, draws, first.pos);
            var both := GenNames(poems, a + b, draws, pos);
            both.results == first.results + second.results && both.pos == second.pos
  {
    RepeatAppend(GenNameStep(poems, draws), a, b, pos);
  }

  /** One attempt of `genNames` keeps exactly what `genName` returns. */
  lemma GenNamesOne(poems: seq<PoemEntry>, draws: Draws, pos: nat)
    ensures var g := GenName(poems, draws, pos);
            GenNames(poems, 1, draws, pos) == Batch(Kept(g), g.pos)
  {
    RepeatOne(GenNameStep(poems, draws), pos);
  }

  /** When no call of `genName` returns null, `genNames` returns `count` names. */
  lemma GenNamesAllSucceed(poems: seq<PoemEntry>, count: nat, draws: Draws, pos: nat)
    requires forall p: nat :: GenName(poems, draws, p).result.Some?
    ensures |GenNames(poems, count, draws, pos).results| == count
  {
    RepeatAllKept(GenNameStep(poems, draws), count, pos);
  }

  /** `genNames(poems)` with the default count `NAME_AMOUNT`. */
  function GenNamesDefault(poems: seq<PoemEntry>, draws: Draws, pos: nat): (r: Batch<GeneratedName>)
    ensures |r.results| <= NameAmount
    ensures forall k | 0 <= k < |r.results| :: DerivedFromSome(r.results[k], poems)
  {
    GenNames(poems, NameAmount, draws, pos)
  }
}

=== FILE: rand.dfy ===
/**
 * The random source behind `choose` and `between`.  A run's random draws are
 * an explicit oracle: `draws(k, n)` is the index that the `k`-th draw of the
 * run yields when `between(0, n)` asks for one below `n`.  A random pick is
 * then a deterministic function of the oracle and of how many draws were
 * consumed before it, so termination and ordering need no probability.
 */
module Rand {

  /** `draws(k, n)`: the result of the `k`-th call `between(0, n)`; for
      `n > 0` it is an index in [0, n), which is the contract of `between`. */
  type Draws = f: (nat, nat) -> nat | forall k, n :: 0 < n ==> f(k, n) < n
    witness (k: nat, n: nat) => 0

  /** `choose(arr)` as the `pos`-th draw: the element at the drawn index, and
      the number of draws consumed afterwards. */
  function Choose<T>(arr: seq<T>, draws: Draws, pos: nat): (r: (T, nat))
    requires |arr| > 0
    ensures r.0 in arr && r.0 == arr[draws(pos, |arr|)]
    ensures r.1 == pos + 1
  {
    (arr[draws(pos, |arr|)], pos + 1)
  }
}

=== FILE: text.dfy ===
/**
 * String helpers with ECMAScript semantics: the `\s` class and `trim`,
 * filtering characters out, splitting on a separator and joining back.
 * Strings are sequences of UTF-16 code units; every character the model
 * meets lies in the Basic Multilingual Plane, so one `char` is one unit.
 */
module Text {

  /** The characters `\s` matches in a regular expression; `String.prototype.trim` strips exactly these. */
  predicate IsWhitespace(c: char) {
    || c == '\t' || c == '\n' || c == '\U{B}' || c == '\U{C}' || c == '\r' || c == ' '
    || c == '\U{A0}' || c == '\U{1680}' || ('\U{2000}' <= c <= '\U{200A}')
    || c == '\U{2028}' || c == '\U{2029}' || c == '\U{202F}' || c == '\U{205F}'
    || c == '\U{3000}' || c == '\U{FEFF}'
  }

  /** The line terminators: the characters a regular-expression `.` does not match. */
  predicate IsLineTerminator(c: char) {
    c == '\n' || c == '\r' || c == '\U{2028}' || c == '\U{2029}'
  }

  predicate NoWhitespace(s: string) {
    forall i | 0 <= i < |s| :: !IsWhitespace(s[i])
  }

  predicate HasPrefix(s: string, p: string) {
    |p| <= |s| && s[..|p|] == p
  }

  /** `t` occurs in `s` at position `i`: `HasPrefix` taken at an offset. */
  predicate OccursAt(s: string, t: string, i: int) {
    0 <= i && i + |t| <= |s| && s[i..i + |t|] == t
  }

  lemma {:induction false} OccursAtStart(t: string, rest: string)
    ensures OccursAt(t + rest, t, 0)
  {
    assert (t + rest)[..|t|] == t;
  }

  lemma {:induction false} OccursInLeft(a: string, b: string, t: string, i: int)
    requires OccursAt(a, t, i)
    ensures OccursAt(a + b, t, i)
  {
    assert (a + b)[i..i + |t|] == a[i..i + |t|];
  }

  lemma {:induction false} OccursInRight(a: string, b: string, t: string, i: int)
    requires OccursAt(b, t, i)
    ensures OccursAt(a + b, t, |a| + i)
  {
    assert (a + b)[|a| + i..|a| + i + |t|] == b[i..i + |t|];
  }

  /** Concatenation is associative. */
  lemma SeqAssoc<T>(x: seq<T>, y: seq<T>, z: seq<T>)
    ensures x + (y + z) == (x + y) + z
  {
  }

  /** `a` is obtained from `b` by deleting elements, keeping the order of the rest. */
  predicate IsSubsequence<T(==)>(a: seq<T>, b: seq<T>)
    decreases |b|
  {
    || a == []
    || (&& b != []
        && ((a[0] == b[0] && IsSubsequence(a[1..], b[1..])) || IsSubsequence(a, b[1..])))
  }

  // ---------------------------------------------------------------------------
  // Filtering characters out

  /** `s` with every character that occurs in `drop` removed, the rest kept in order. */
  function Without(s: string, drop: string): (r: string)
    ensures |r| <= |s|
    ensures forall i | 0 <= i < |r| :: r[i] in s && r[i] !in drop
  {
    if s == [] then []
    else if s[0] in drop then Without(s[1..], drop)
    else [s[0]] + Without(s[1..], drop)
  }

  lemma {:induction false} WithoutIsSubsequence(s: string, drop: string)
    ensures IsSubsequence(Without(s, drop), s)
  {
    if s != [] {
      WithoutIsSubsequence(s[1..], drop);
    }
  }

  /** Every character outside `drop` survives as often as it occurred; none inside does. */
  lemma {:induction false} WithoutCounts(s: string, drop: string)
    ensures forall c :: multiset(Without(s, drop))[c] == if c in drop then 0 else multiset(s)[c]
  {
    if s != [] {
      WithoutCounts(s[1..], drop);
      assert s == [s[0]] + s[1..];
    }
  }

  /** A string with no character of `drop` comes back unchanged. */
  lemma {:induction false} WithoutNoneDropped(s: string, drop: string)
    requires forall i | 0 <= i < |s| :: s[i] !in drop
    ensures Without(s, drop) == s
  {
    if s != [] {
      WithoutNoneDropped(s[1..], drop);
    }
  }

  lemma WithoutIdempotent(s: string, drop: string)
    ensures Without(Without(s, drop), drop) == Without(s, drop)
  {
    WithoutNoneDropped(Without(s, drop), drop);
  }

  lemma {:induction false} WithoutAppend(a: string, b: string, drop: string)
    ensures Without(a + b, drop) == Without(a, drop) + Without(b, drop)
  {
    if a == [] {
      assert a + b == b;
    } else {
      assert (a + b)[1..] == a[1..] + b;
      WithoutAppend(a[1..], b, drop);
    }
  }

  // ---------------------------------------------------------------------------
  // trim

  function TrimStart(s: string): (r: string)
    ensures |r| <= |s| && r == s[|s| - |r|..]
    ensures forall i | 0 <= i < |s| - |r| :: IsWhitespace(s[i])
    ensures r == [] || !IsWhitespace(r[0])
  {
    if s != [] && IsWhitespace(s[0]) then TrimStart(s[1..]) else s
  }

  function TrimEnd(s: string): (r: string)
    ensures |r| <= |s| && r == s[..|r|]
    ensures forall i | |r| <= i < |s| :: IsWhitespace(s[i])
    ensures r == [] || !IsWhitespace(r[|r| - 1])
  {
    if s != [] && IsWhitespace(s[|s| - 1]) then TrimEnd(s[..|s| - 1]) else s
  }

  /** `String.prototype.trim`. */
  function Trim(s: string): (r: string)
    ensures r == [] || (!IsWhitespace(r[0]) && !IsWhitespace(r[|r| - 1]))
  {
    TrimEnd(TrimStart(s))
  }

  lemma {:induction false} TrimStartUnchanged(s: string)
    requires s == [] || !IsWhitespace(s[0])
    ensures TrimStart(s) == s
  {
  }

  /** A string without surrounding whitespace is its own trim; hence trimming is idempotent. */
  lemma TrimUnchanged(s: string)
    requires s == [] || (!IsWhitespace(s[0]) && !IsWhitespace(s[|s| - 1]))
    ensures Trim(s) == s
  {
    TrimStartUnchanged(s);
  }

  lemma TrimIdempotent(s: string)
    ensures Trim(Trim(s)) == Trim(s)
  {
    TrimUnchanged(Trim(s));
  }

  // ---------------------------------------------------------------------------
  // split and join

  /** `s.split(sep)` for a one-character separator: the maximal runs between separators. */
  function Split(s: string, sep: char): (r: seq<string>)
    ensures |r| > 0
    ensures forall k | 0 <= k < |r| :: sep !in r[k]
    ensures forall k, i | 0 <= k < |r| && 0 <= i < |r[k]| :: r[k][i] in s
    ensures s != [] && s[0] != sep ==> r[0] != [] && r[0][0] == s[0]
  {
    if s == [] then [[]]
    else
      var rest := Split(s[1..], sep);
      if s[0] == sep then [[]] + rest
      else [[s[0]] + rest[0]] + rest[1..]
  }

  /** `parts.join(sep)`. */
  function JoinWith(parts: seq<string>, sep: char): string
  {
    if |parts| == 0 then []
    else if |parts| == 1 then parts[0]
    else parts[0] + [sep] + JoinWith(parts[1..], sep)
  }

  /** `parts.join("")`. */
  function Concat(parts: seq<string>): string
  {
    if parts == [] then [] else parts[0] + Concat(parts[1..])
  }

  /** Joining the pieces of a split with the separator gives the original string back. */
  lemma {:induction false} JoinSplit(s: string, sep: char)
    ensures JoinWith(Split(s, sep), sep) == s
  {
    if s != [] {
      var rest := Split(s[1..], sep);
      JoinSplit(s[1..], sep);
      if s[0] == sep {
        JoinEmptyHead(rest, sep);
      } else {
        JoinConsHead(s[0], rest, sep);
      }
      assert s == [s[0]] + s[1..];
    }
  }

  /** An empty first piece contributes only its separator. */
  lemma JoinEmptyHead(parts: seq<string>, sep: char)
    requires |parts| > 0
    ensures JoinWith([[]] + parts, sep) == [sep] + JoinWith(parts, sep)
  {
    assert ([[]] + parts)[1..] == parts;
  }

  /** A character glued onto the first piece is glued onto the join. */
  lemma JoinConsHead(c: char, parts: seq<string>, sep: char)
    requires |parts| > 0
    ensures JoinWith([[c] + parts[0]] + parts[1..], sep) == [c] + JoinWith(parts, sep)
  {
    var r := [[c] + parts[0]] + parts[1..];
    assert r[0] == [c] + parts[0];
    if |parts| > 1 {
      assert r[1..] == parts[1..];
      assert JoinWith(parts, sep) == parts[0] + [sep] + JoinWith(parts[1..], sep);
    }
  }

  /** A string without the separator splits into itself alone. */
  lemma {:induction false} SplitNoSep(a: string, sep: char)
    requires sep !in a
    ensures Split(a, sep) == [a]
  {
    if a != [] {
      SplitNoSep(a[1..], sep);
      assert a == [a[0]] + a[1..];
    }
  }

  /** The piece before the first separator comes off first. */
  lemma {:induction false} SplitAtSep(a: string, b: string, sep: char)
    requires sep !in a
    ensures Split(a + [sep] + b, sep) == [a] + Split(b, sep)
  {
    if a == [] {
      assert (a + [sep] + b)[1..] == b;
    } else {
      var s := a + [sep] + b;
      assert s[0] == a[0] && s[1..] == a[1..] + [sep] + b;
      SplitAtSep(a[1..], b, sep);
      assert [a[0]] + a[1..] == a;
    }
  }

  /** Splitting a join of separator-free pieces gives the pieces back. */
  lemma {:induction false} SplitJoin(parts: seq<string>, sep: char)
    requires |parts| > 0
    requires forall k | 0 <= k < |parts| :: sep !in parts[k]
    ensures Split(JoinWith(parts, sep), sep) == parts
  {
    if |parts| == 1 {
      SplitNoSep(parts[0], sep);
    } else {
      SplitJoin(parts[1..], sep);
      SplitAtSep(parts[0], JoinWith(parts[1..], sep), sep);
    }
  }

  /** Gluing the pieces of a split together deletes the separators and nothing else. */
  lemma {:induction false} ConcatSplit(s: string, sep: char)
    ensures Concat(Split(s, sep)) == Without(s, [sep])
  {
    if s != [] {
      var rest := Split(s[1..], sep);
      ConcatSplit(s[1..], sep);
      if s[0] == sep {
        assert ([[]] + rest)[1..] == rest;
      } else {
        assert ([[s[0]] + rest[0]] + rest[1..])[1..] == rest[1..];
      }
    }
  }

  lemma {:induction false} ConcatAppend(a: seq<string>, b: seq<string>)
    ensures Concat(a + b) == Concat(a) + Concat(b)
  {
    if a == [] {
      assert a + b == b;
    } else {
      assert (a + b)[1..] == a[1..] + b;
      ConcatAppend(a[1..], b);
    }
  }

  /** The first piece comes first. */
  lemma ConcatCons(h: string, t: seq<string>)
    ensures Concat([h] + t) == h + Concat(t)
  {
    assert ([h] + t)[0] == h && ([h] + t)[1..] == t;
  }

  /** Gluing a character onto the first piece glues it onto the whole. */
  lemma ConcatMergeHead(c: char, h: string, t: seq<string>)
    ensures Concat([[c] + h] + t) == [c] + Concat([h] + t)
  {
    ConcatCons([c] + h, t);
    ConcatCons(h, t);
    assert ([c] + h) + Concat(t) == [c] + (h + Concat(t));
  }
}

=== FILE: wrappers.dfy ===
/** Failure-carrying datatypes shared by the model. */
module Wrappers {

  /** A value that may be absent: JavaScript's `null` or `undefined`. */
  datatype Option<+T> = None | Some(value: T)

  /** The outcome of a call that either returns a value or throws an `Error`. */
  datatype Result<+T, +E> = Success(value: T) | Failure(error: E)
}
